=== FILE: README.md ===
# xinput listing parser, modelled in Dafny

Input Device Indicator is a tray applet. It lists the X input devices and lets
the user enable or disable each one. Its only piece of real logic is the parser
for the output of `xinput list --long`. That output is a tree drawn with glyphs:

```
⎡ A        id=2    [master pointer  (3)]
⎜   ↳ A1   id=4    [slave  pointer  (2)]
        Reporting 1 classes:
⎣ B        id=3    [master keyboard (2)]
    ↳ B1   id=5    [slave  keyboard (3)]
    This device is disabled
~ C        id=6    [floating slave]
```

`parse` turns this text into a forest of `Device` records:

- Master devices and floating devices are at the top level.
- Every other slave hangs under the device whose id it names in parentheses.
- A "This device is disabled" line clears `enabled` on the device read just before it.

The repository has two versions of the parser. `inputdeviceindicator/command.py` is
the current one. `xinputindicator/command.py` is an older one: it handles the short
listing only and has no `enabled` flag. This project models both versions, plus
`get_device_from_list_by_id`, which searches the forest. The older `Device`, `add_child` and `parse_line`
(xinputindicator/command.py:21-57 and 106-128) match the current ones apart from
`enabled`, and share their model.

Modules, one concept each:

- `Maybe` (maybe.dfy): `Option` and `Result`.
- `Chars` (chars.dfy): the ASCII character classes `\s`, `\d` and `\w`, the maximal run of a class, and decimal digits.
- `Text` (text.dfy): `str.split('\n')` as `Split`, its inverse `Join`, `str.strip()` as `Strip`, and the substring test `pat in s` as `Contains`.
- `Devices` (devices.dfy): the `Device` record, `add_child`, the parse errors, and device counting.
- `LineGrammar` (line_grammar.dfy): the device-line regular expression, in two forms.
  - A declarative form: which decompositions of a line fit the expression, and which one a backtracking `re.search` prefers. That is the leftmost start, the longest decorative prefix and the longest name.
  - A recognizer that reads the line left to right.
  - `parse_line` is built on top of the recognizer.
- `Arenas` (arena.dfy): the object graph `parse` builds.
  - The `Device` objects are numbered in creation order; children are referenced by number.
  - `device_map` is the arena's `index` and `device_list` is its `roots`.
  - `Forest` reads the nested records out of the arena.
- `ListingParser` (listing_parser.dfy): the current `parse` and `get_device_from_list_by_id`.
  - The loop is `Classify` (what a line is) followed by `Run` (the loop body folded over the lines).
  - `RefArena` is a separate, declarative description of the outcome, defined position by position.
- `LegacyParser` (legacy_parser.dfy): the older `parse`, which reuses the same loop with a narrower classification.

Errors are values, not exceptions:

- `NoMatch(line)` is the `ValueError` of `parse_line`.
- `MissingParent(id)` is the `KeyError` from `device_map[device.parent_id]`.
- `MarkerBeforeDevice` is the unbound local `device`, when a disabled marker comes before any device line.

The model follows the code in three details:

- The disabled marker is found by the substring test `'This device is disabled' in line`, anywhere in a skipped line.
- A line is skipped when it is empty or when it matches `^\s+[^\s↳]`.
- Every other line must match the device grammar, or `parse` fails.

## Model

| member | source | states |
|---|---|---|
| Devices.NewDevice | inputdeviceindicator/command.py:112-119 | a device as the constructor leaves it holds the id, name, parent id, level and type it was given, is enabled, has no children, and counts as one device |
| Devices.Device.AddChild | inputdeviceindicator/command.py:132-133 | the child becomes the new last child, the earlier children and the device's own fields are kept, and the tree grows by exactly the child's devices |
| Chars.DigitsOf | inputdeviceindicator/command.py:251 | the decimal rendering of a number is a digit run that `int()` reads back as the same number |
| Text.SplitJoin | inputdeviceindicator/command.py:220 | splitting at newlines undoes joining newline-free lines with newlines, so split and join are inverses |
| Text.StripCut | inputdeviceindicator/command.py:252 | `strip()` returns a slice of the name that has only whitespace before and after it |
| Text.StripUnique | inputdeviceindicator/command.py:252 | whenever a name is whitespace, a core with non-blank ends, and whitespace, `strip()` returns exactly that core |
| Text.StripPadded | inputdeviceindicator/command.py:252 | whitespace added around a name never changes what `strip()` returns |
| Text.StripIdempotent | inputdeviceindicator/command.py:252 | stripping an already stripped name changes nothing |
| Text.Contains | inputdeviceindicator/command.py:223 | `pat in s` holds exactly when `pat` occurs at some index of `s` |
| LineGrammar.TailExact | inputdeviceindicator/command.py:139-150 | the tail reader accepts exactly the texts of the form blanks, `id=`, digits, blanks, `[`, then `master/slave TYPE (PARENT)` or `floating master/slave`, then `]`, and it reads back the id and descriptor they carry |
| LineGrammar.LeadEndsExact | inputdeviceindicator/command.py:138 | the listed prefix ends are exactly the prefixes `[~⎡⎜⎣]?(\s+↳)?` can match at a start |
| LineGrammar.MakeDevice | inputdeviceindicator/command.py:251-256 | a match gives a device with the match's id and name, and with the parent, level and type of the attached form, or no parent, the level and type `floating` for the floating form |
| LineGrammar.ParseLine | inputdeviceindicator/command.py:235-256 | a parsed device is enabled and childless, its name has no surrounding blanks, and a failure is `ValueError` for that very line |
| LineGrammar.ParseLineMatches | inputdeviceindicator/command.py:248-256 | `parse_line` succeeds exactly on lines some decomposition of the expression fits, and then returns the device of the decomposition `re.search` prefers (leftmost start, longest prefix, longest name), with the name stripped |
| ListingParser.SubordinateExact | inputdeviceindicator/command.py:155 | a line counts as subordinate exactly when it is blanks followed by a character that is neither blank nor `↳` |
| ListingParser.Classify | inputdeviceindicator/command.py:221-226 | a line is skipped exactly when it is empty or subordinate; a skipped line disables exactly when it contains the marker; any other line is a device line when `parse_line` accepts it and a rejected line otherwise |
| ListingParser.Run | inputdeviceindicator/command.py:221-231 | the loop over the lines, stopped by the first failing line, leaves a forest in which every created object is reached exactly once from the top-level list, with one object per device line; the step looks up the parent before registering the device |
| ListingParser.Step | inputdeviceindicator/command.py:221-231 | one pass of the loop body keeps the graph a forest, keeps every device reachable exactly once, and adds one device for a device line and none otherwise |
| ListingParser.Parse | inputdeviceindicator/command.py:218-232 | a successful parse returns a forest holding exactly as many devices as the listing has device lines |
| ListingParser.RefIndex | inputdeviceindicator/command.py:227 | `device_map` sends every id read so far to the latest device with that id |
| ListingParser.RootIndices | inputdeviceindicator/command.py:228-231 | the top-level list holds exactly the devices that are not non-floating slaves, in reading order |
| ListingParser.KidIndices | inputdeviceindicator/command.py:228-229 | a device's children are exactly the later devices whose parent resolves to it, in reading order |
| ListingParser.RunMatchesReference | inputdeviceindicator/command.py:218-232 | the loop succeeds exactly on listings where no line fails given the lines above it, and then builds the declared graph; when it fails, it fails with the error of the first failing line |
| ListingParser.ParseMatchesReference | inputdeviceindicator/command.py:158-232 | `parse` succeeds exactly on valid listings, returns the forest of the declared graph, and otherwise reports the error of the first failing line |
| ListingParser.DisabledExact | inputdeviceindicator/command.py:222-225 | on a valid listing the loop succeeds, and the device of a device line ends up disabled exactly when a marker line comes after it and before the next device line |
| ListingParser.NoMarkerAllEnabled | inputdeviceindicator/command.py:222-225 | a listing without marker lines yields a forest in which every device is enabled |
| ListingParser.ParseIgnoresDetail | inputdeviceindicator/command.py:175-202 | inserting an empty or subordinate line without the marker anywhere in a listing does not change what `parse` returns |
| ListingParser.ExampleForest | inputdeviceindicator/command.py:162-173 | the documented example gives two masters, each holding its slave, followed by the floating slave |
| ListingParser.FindById | inputdeviceindicator/command.py:259-285 | the search returns the first top-level device or direct child, in visiting order, that carries the id, and returns `None` exactly when none of them carries it |
| Arenas.Push | inputdeviceindicator/command.py:227 | registering a device appends its object and maps its id to it; every other id keeps its entry |
| Arenas.AddKid | inputdeviceindicator/command.py:229 | `add_child` on an object appends to that object's children and leaves every other object unchanged |
| Arenas.Disable | inputdeviceindicator/command.py:224 | clearing `enabled` changes that one field of that one object and nothing else |
| Arenas.AddDevice | inputdeviceindicator/command.py:226-231 | a device line fails exactly for a non-floating slave whose parent id is unknown, and the error is that `KeyError`; otherwise the device is registered and its object is created childless |
| Arenas.AddDeviceShape | inputdeviceindicator/command.py:228-231 | a non-floating slave is appended to its parent's children and leaves every other object unchanged; any other device is appended to the top-level list |
| Arenas.AddDeviceOnce | inputdeviceindicator/command.py:226-231 | adding a device, parent looked up before it is registered, keeps every object reachable from the top-level list exactly once |
| Arenas.ForestCount | inputdeviceindicator/command.py:232 | when every object is reachable exactly once, the returned forest holds every created device at some level, and as many devices as were created |
| Arenas.AddDeviceAsWritten | inputdeviceindicator/command.py:226-231 | in the written order, a device line fails exactly for a non-floating slave whose parent id is neither known nor its own id, with that `KeyError`; otherwise one object holding the device is created and its id is mapped to it |
| Arenas.AsWrittenAgrees | inputdeviceindicator/command.py:227-229 | registering before or after the parent lookup makes no difference unless a device names itself as its parent |
| Arenas.AsWrittenSelfParent | inputdeviceindicator/command.py:227-229 | in the written order, a non-floating slave naming itself as parent becomes its own only child and stays out of the top-level list, so it is lost from the result |
| Arenas.SelfParentExample | inputdeviceindicator/command.py:227-229 | on the first line `id=4 … (4)` the written order accepts the device and loses it, while looking up the parent first reports the missing parent |
| LegacyParser.ClassifyLegacy | xinputindicator/command.py:95-98 | the older loop skips exactly the empty lines, never disables anything, and hands every other line to `parse_line` |
| LegacyParser.ParseLegacy | xinputindicator/command.py:92-104 | a successful parse returns a forest holding exactly as many devices as the listing has device lines |
| LegacyParser.LegacyMatchesReference | xinputindicator/command.py:78-104 | the older `parse` succeeds exactly on valid listings, returns the forest of the declared graph, and every device in it is enabled |
| LegacyParser.LegacyRejects | xinputindicator/command.py:120-122 | any non-empty line the grammar rejects, detail lines of the long listing included, makes the older `parse` fail |
| LegacyParser.LegacyAgrees | xinputindicator/command.py:95-103 | on a listing without subordinate lines, the two versions of `parse` return the same result |

## Left out

- The `XInput` class (`list`, `enable`, `disable`) runs the `xinput` program through `subprocess`. The model takes the listing text as a parameter and does not issue enable or disable commands.
- `Device.__repr__` is left out. It only formats output for doctests.
- The user-interface modules (`indicator.py`, `menu.py`, `about.py`), `mock.py` and `setup.py` are not part of this model.
- Python's `\s`, `\d` and `\w` also match non-ASCII whitespace, digits and letters, and `str.strip()` and `int()` accept them too. The model uses the ASCII members of each class only: for whitespace these are blank, `\t`, `\n`, `\r`, `\v`, `\f` and the separators U+001C to U+001F.
- The regular expression's `.` excludes `\n`. This makes no difference here, because every line comes from `split('\n')` and has no newline.
- Python object identity is modelled by position in the arena. Two devices with the same id are two objects, as in Python, and `device_map` keeps the later one.
- The older `Device` has no `enabled` field. It is modelled by the shared `Device` record with `enabled` always true.
- The error values carry the same information as the Python exceptions (the line, the parent id), but not their message text.
- LegacyParser.ParseLegacy: its `ensures` states only the device count. The full outcome is stated by `LegacyMatchesReference`.
- ListingParser.Parse: its `ensures` states only the device count. The full outcome is stated by `ParseMatchesReference`.
- Arenas.AddDevice, Arenas.AddDeviceShape, Arenas.AddDeviceOnce, ListingParser.Run, ListingParser.Step, ListingParser.Parse, ListingParser.DisabledExact, ListingParser.NoMarkerAllEnabled, ListingParser.KidIndices, ListingParser.RunMatchesReference, ListingParser.ParseMatchesReference, LegacyParser.ParseLegacy, LegacyParser.LegacyMatchesReference: these follow the corrected order of "## Findings", in which the parent is looked up before the new device is registered. Both versions of `parse` register first. The two orders differ exactly when a non-floating slave names its own id as its parent; `Arenas.AsWrittenAgrees` proves they agree in every other case, and `Arenas.AsWrittenSelfParent` states what the written order does in that one case.
- ListingParser.ExampleForest: it starts from the five device records that the documented example's lines parse to, not from the example text itself. `Split`, `Classify` and `parse_line` are not applied to that text in the proof, so the parsing of these concrete lines is not proved here. The lemma covers the loop and the forest it builds.

## Findings

| source | as written | input that shows it | evidently intended | confidence | as-written member | corrected member |
|---|---|---|---|---|---|---|
| inputdeviceindicator/command.py:227-229 | the new device is put into `device_map` before its parent is looked up, so a non-floating slave whose parent id is its own id is found as its own parent: it becomes its own child, is never placed in the top-level list, and vanishes from the result | a listing whose first line is `⎜   ↳ X   id=4    [slave  pointer  (4)]` would make `parse` return `[]` without error | the parent is looked up among the devices read before this one, raising `KeyError` when none carries the id | low; not executed | Arenas.AddDeviceAsWritten, Arenas.SelfParentExample | Arenas.AddDevice |
| xinputindicator/command.py:99-101 | the older loop has the same order: the device is entered into `device_map` before its parent is looked up there, so a non-floating slave naming its own id as parent becomes its own child and is lost | the short listing `⎜   ↳ X   id=4    [slave  pointer  (4)]` would make the older `parse` return `[]` without error | the parent is looked up among the devices read before this one, raising `KeyError` when none carries the id | low; not executed | Arenas.AddDeviceAsWritten, Arenas.SelfParentExample | Arenas.AddDevice |

=== FILE: arena.dfy ===
/** The object graph `parse` of `inputdeviceindicator/command.py` builds
    while it reads the listing: every `Device` object it created, the
    `device_map` from id to the latest object with that id, and the
    top-level `device_list`. Objects are numbered in creation order and
    refer to their children by number, so that attaching a child or
    clearing `enabled` on an object already placed in the tree is an
    update of one node, as it is on the Python object. */
module Arenas {
  import opened Maybe
  import opened Devices

  /** One device object: its own fields (children left empty) and the
      numbers of the objects `add_child` attached to it, in order. */
  datatype Node = Node(device: Device, kids: seq<nat>)

  /** `nodes` in creation order, `index` for `device_map`, `roots` for
      `device_list`. */
  datatype Arena = Arena(nodes: seq<Node>, index: map<nat, nat>, roots: seq<nat>)

  /** The state before the first line. */
  const Empty: Arena := Arena([], map[], [])

  /** Every reference names an existing object, and a child is always
      created after its parent, so the graph is a forest. */
  predicate WellFormed(a: Arena) {
    (forall i, j :: 0 <= i < |a.nodes| && 0 <= j < |a.nodes[i].kids| ==> i < a.nodes[i].kids[j] < |a.nodes|) &&
    (forall j :: 0 <= j < |a.roots| ==> a.roots[j] < |a.nodes|) &&
    (forall id :: id in a.index ==> a.index[id] < |a.nodes|)
  }

  // ---------------------------------------------------------------------
  // Reading the forest out of the arena

  /** The device tree rooted at object `i`, children filled in. */
  function Build(a: Arena, i: nat): (d: Device)
    requires WellFormed(a) && i < |a.nodes|
    decreases |a.nodes| - i, 1, 0
  {
    a.nodes[i].device.(children := BuildAll(a, a.nodes[i].kids, i + 1))
  }

  /** The trees rooted at the objects `ks`, all numbered `lo` or above. */
  function BuildAll(a: Arena, ks: seq<nat>, lo: nat): (ds: seq<Device>)
    requires WellFormed(a) && lo <= |a.nodes|
    requires forall j :: 0 <= j < |ks| ==> lo <= ks[j] < |a.nodes|
    ensures |ds| == |ks|
    ensures forall j :: 0 <= j < |ks| ==> ds[j] == Build(a, ks[j])
    decreases |a.nodes| - lo + 1, 0, |ks|
  {
    if ks == [] then []
    else [Build(a, ks[0])] + BuildAll(a, ks[1..], lo)
  }

  /** `device_list` with every device's children filled in: what `parse`
      returns. */
  function Forest(a: Arena): (ds: seq<Device>)
    requires WellFormed(a)
    ensures |ds| == |a.roots|
  {
    BuildAll(a, a.roots, 0)
  }

  // ---------------------------------------------------------------------
  // How often an object is reached, and how many objects a tree holds

  /** How many times object `x` is reached from object `i`, `i` included. */
  function Occ(a: Arena, i: nat, x: nat): nat
    requires WellFormed(a) && i < |a.nodes|
    decreases |a.nodes| - i, 1, 0
  {
    (if i == x then 1 else 0) + OccAll(a, a.nodes[i].kids, i + 1, x)
  }

  function OccAll(a: Arena, ks: seq<nat>, lo: nat, x: nat): nat
    requires WellFormed(a) && lo <= |a.nodes|
    requires forall j :: 0 <= j < |ks| ==> lo <= ks[j] < |a.nodes|
    decreases |a.nodes| - lo + 1, 0, |ks|
  {
    if ks == [] then 0
    else Occ(a, ks[0], x) + OccAll(a, ks[1..], lo, x)
  }

  /** Number of objects reached from `i`, counted with repetition. */
  function Size(a: Arena, i: nat): nat
    requires WellFormed(a) && i < |a.nodes|
    decreases |a.nodes| - i, 1, 0
  {
    1 + SizeAll(a, a.nodes[i].kids, i + 1)
  }

  function SizeAll(a: Arena, ks: seq<nat>, lo: nat): nat
    requires WellFormed(a) && lo <= |a.nodes|
    requires forall j :: 0 <= j < |ks| ==> lo <= ks[j] < |a.nodes|
    decreases |a.nodes| - lo + 1, 0, |ks|
  {
    if ks == [] then 0
    else Size(a, ks[0]) + SizeAll(a, ks[1..], lo)
  }

  /** Every object is reached from the roots exactly once, and the roots
      reach nothing else. */
  ghost predicate EachOnce(a: Arena)
    requires WellFormed(a)
  {
    (forall x: nat :: OccAll(a, a.roots, 0, x) == (if x < |a.nodes| then 1 else 0)) &&
    SizeAll(a, a.roots, 0) == |a.nodes|
  }

  /** The device tree built from object `i` holds `Size(a, i)` devices. */
  lemma {:induction false} CountBuild(a: Arena, i: nat)
    requires WellFormed(a) && i < |a.nodes|
    ensures Count(Build(a, i)) == Size(a, i)
    decreases |a.nodes| - i, 1, 0
  {
    CountBuildAll(a, a.nodes[i].kids, i + 1);
  }

  lemma {:induction false} CountBuildAll(a: Arena, ks: seq<nat>, lo: nat)
    requires WellFormed(a) && lo <= |a.nodes|
    requires forall j :: 0 <= j < |ks| ==> lo <= ks[j] < |a.nodes|
    ensures CountAll(BuildAll(a, ks, lo)) == SizeAll(a, ks, lo)
    decreases |a.nodes| - lo + 1, 0, |ks|
  {
    if ks != [] {
      var ds := BuildAll(a, ks, lo);
      assert ds == [Build(a, ks[0])] + BuildAll(a, ks[1..], lo);
      assert ds[1..] == BuildAll(a, ks[1..], lo);
      CountBuild(a, ks[0]);
      CountBuildAll(a, ks[1..], lo);
    }
  }

  /** Nothing outside the arena is reached. */
  lemma {:induction false} OccOutside(a: Arena, i: nat, x: nat)
    requires WellFormed(a) && i < |a.nodes| && |a.nodes| <= x
    ensures Occ(a, i, x) == 0
    decreases |a.nodes| - i, 1, 0
  {
    OccAllOutside(a, a.nodes[i].kids, i + 1, x);
  }

  lemma {:induction false} OccAllOutside(a: Arena, ks: seq<nat>, lo: nat, x: nat)
    requires WellFormed(a) && lo <= |a.nodes| && |a.nodes| <= x
    requires forall j :: 0 <= j < |ks| ==> lo <= ks[j] < |a.nodes|
    ensures OccAll(a, ks, lo, x) == 0
    decreases |a.nodes| - lo + 1, 0, |ks|
  {
    if ks != [] {
      OccOutside(a, ks[0], x);
      OccAllOutside(a, ks[1..], lo, x);
    }
  }

  /** `OccAll` and `SizeAll` add up over a concatenation of references. */
  lemma {:induction false} AllConcat(a: Arena, ks: seq<nat>, ms: seq<nat>, lo: nat, x: nat)
    requires WellFormed(a) && lo <= |a.nodes|
    requires forall j :: 0 <= j < |ks| ==> lo <= ks[j] < |a.nodes|
    requires forall j :: 0 <= j < |ms| ==> lo <= ms[j] < |a.nodes|
    ensures OccAll(a, ks + ms, lo, x) == OccAll(a, ks, lo, x) + OccAll(a, ms, lo, x)
    ensures SizeAll(a, ks + ms, lo) == SizeAll(a, ks, lo) + SizeAll(a, ms, lo)
    decreases |ks|
  {
    if ks == [] {
      assert ks + ms == ms;
    } else {
      assert (ks + ms)[0] == ks[0];
      assert (ks + ms)[1..] == ks[1..] + ms;
      AllConcat(a, ks[1..], ms, lo, x);
    }
  }

  // ---------------------------------------------------------------------
  // Updates

  /** Create the object for `d` and register it in `device_map` under its
      id, replacing any earlier object with that id. */
  function Push(a: Arena, d: Device): (b: Arena)
    ensures |b.nodes| == |a.nodes| + 1 && b.nodes[..|a.nodes|] == a.nodes
    ensures b.nodes[|a.nodes|] == Node(d, []) && b.roots == a.roots
    ensures d.id in b.index && b.index[d.id] == |a.nodes|
    ensures forall id :: id != d.id ==> (id in b.index <==> id in a.index)
    ensures forall id :: id != d.id && id in a.index ==> b.index[id] == a.index[id]
  {
    Arena(a.nodes + [Node(d, [])], a.index[d.id := |a.nodes|], a.roots)
  }

  /** `add_child`: object `k` becomes the new last child of object `p`. */
  function AddKid(a: Arena, p: nat, k: nat): (b: Arena)
    requires p < |a.nodes|
    ensures |b.nodes| == |a.nodes| && b.index == a.index && b.roots == a.roots
    ensures b.nodes[p].kids == a.nodes[p].kids + [k] && b.nodes[p].device == a.nodes[p].device
    ensures forall j :: 0 <= j < |a.nodes| && j != p ==> b.nodes[j] == a.nodes[j]
  {
    a.(nodes := a.nodes[p := a.nodes[p].(kids := a.nodes[p].kids + [k])])
  }

  /** `device.enabled = False` on object `j`. */
  function Disable(a: Arena, j: nat): (b: Arena)
    requires j < |a.nodes|
    ensures |b.nodes| == |a.nodes| && b.index == a.index && b.roots == a.roots
    ensures b.nodes[j].device == a.nodes[j].device.(enabled := false) && b.nodes[j].kids == a.nodes[j].kids
    ensures forall i :: 0 <= i < |a.nodes| && i != j ==> b.nodes[i] == a.nodes[i]
  {
    a.(nodes := a.nodes[j := a.nodes[j].(device := a.nodes[j].device.(enabled := false))])
  }

  /** One device line of the loop, with the parent looked up before the
      new device is registered: a non-floating slave goes under the
      latest earlier device with its parent id, any other device to the
      top level; a parent id no earlier device carries raises
      `KeyError`. */
  function AddDevice(a: Arena, d: Device): (r: Result<Arena, ParseError>)
    requires WellFormed(a)
    ensures r.Err? <==> IsNestedSlave(d) && (d.parentId.None? || d.parentId.value !in a.index)
    ensures r.Err? ==> r.error == MissingParent(d.parentId)
    ensures r.Ok? ==> WellFormed(r.value)
    ensures r.Ok? ==> |r.value.nodes| == |a.nodes| + 1 && r.value.nodes[|a.nodes|] == Node(d, [])
    ensures r.Ok? ==> r.value.index == a.index[d.id := |a.nodes|]
  {
    var n := |a.nodes|;
    var b := Push(a, d);
    if !IsNestedSlave(d) then
      Ok(b.(roots := a.roots + [n]))
    else if d.parentId.None? || d.parentId.value !in a.index then
      Err(MissingParent(d.parentId))
    else
      Ok(AddKid(b, a.index[d.parentId.value], n))
  }

  /** Where `AddDevice` puts the new object: the earlier objects keep
      their fields and references, except that the parent gains the new
      object as its last child; a top-level device is appended to the
      top-level list. */
  lemma AddDeviceShape(a: Arena, d: Device)
    requires WellFormed(a) && AddDevice(a, d).Ok?
    ensures forall j :: 0 <= j < |a.nodes| ==>
      AddDevice(a, d).value.nodes[j] ==
        (if IsNestedSlave(d) && j == a.index[d.parentId.value]
         then a.nodes[j].(kids := a.nodes[j].kids + [|a.nodes|])
         else a.nodes[j])
    ensures AddDevice(a, d).value.roots == a.roots + (if IsNestedSlave(d) then [] else [|a.nodes|])
  {
  }

  /** `AddDevice` on a top-level device, spelled out. */
  lemma AddRootStep(a: Arena, d: Device)
    requires WellFormed(a) && !IsNestedSlave(d)
    ensures AddDevice(a, d) == Ok(Arena(a.nodes + [Node(d, [])], a.index[d.id := |a.nodes|], a.roots + [|a.nodes|]))
  {
  }

  /** `AddDevice` on a non-floating slave whose parent is known, spelled
      out. */
  lemma AddKidStep(a: Arena, d: Device)
    requires WellFormed(a) && IsNestedSlave(d) && d.parentId.Some? && d.parentId.value in a.index
    ensures var p := a.index[d.parentId.value];
      AddDevice(a, d) == Ok(Arena(
        a.nodes[p := a.nodes[p].(kids := a.nodes[p].kids + [|a.nodes|])] + [Node(d, [])],
        a.index[d.id := |a.nodes|],
        a.roots))
  {
    var p := a.index[d.parentId.value];
    var n := |a.nodes|;
    assert (a.nodes + [Node(d, [])])[p := a.nodes[p].(kids := a.nodes[p].kids + [n])] ==
      a.nodes[p := a.nodes[p].(kids := a.nodes[p].kids + [n])] + [Node(d, [])];
  }

  /** The same step in the order the loop performs it: the new device is
      registered in `device_map` first and its parent looked up after. */
  function AddDeviceAsWritten(a: Arena, d: Device): (r: Result<Arena, ParseError>)
    requires WellFormed(a)
    ensures r.Err? <==> IsNestedSlave(d) && (d.parentId.None? || (d.parentId.value !in a.index && d.parentId.value != d.id))
    ensures r.Err? ==> r.error == MissingParent(d.parentId)
    ensures r.Ok? ==> |r.value.nodes| == |a.nodes| + 1 && r.value.nodes[|a.nodes|].device == d
    ensures r.Ok? ==> r.value.index == a.index[d.id := |a.nodes|]
  {
    var n := |a.nodes|;
    var b := Push(a, d);
    if !IsNestedSlave(d) then
      Ok(b.(roots := a.roots + [n]))
    else if d.parentId.None? || d.parentId.value !in b.index then
      Err(MissingParent(d.parentId))
    else
      Ok(AddKid(b, b.index[d.parentId.value], n))
  }

  /** The two orders agree on every device that does not name itself as
      its parent. */
  lemma AsWrittenAgrees(a: Arena, d: Device)
    requires WellFormed(a) && d.parentId != Some(d.id)
    ensures AddDeviceAsWritten(a, d) == AddDevice(a, d)
  {
  }

  /** A non-floating slave whose parent id is its own id is, in the
      written order, attached to itself and to nothing else: it is never
      placed under a root nor in the top-level list, so it is missing
      from the returned forest. */
  lemma AsWrittenSelfParent(a: Arena, d: Device)
    requires WellFormed(a) && IsNestedSlave(d) && d.parentId == Some(d.id)
    ensures AddDeviceAsWritten(a, d).Ok?
    ensures AddDeviceAsWritten(a, d).value.nodes[|a.nodes|].kids == [|a.nodes|]
    ensures AddDeviceAsWritten(a, d).value.roots == a.roots
    ensures AddDeviceAsWritten(a, d).value.nodes[..|a.nodes|] == a.nodes
  {
  }

  /** The smallest instance: the first line of a listing is a slave with
      id 4 attached to 4. The written order accepts it, makes it its own
      child and leaves the top-level list empty; looking the parent up
      first reports the missing parent. */
  lemma SelfParentExample()
    ensures AddDeviceAsWritten(Empty, NewDevice(4, "X", Some(4), Slave, "pointer")) ==
      Ok(Arena([Node(NewDevice(4, "X", Some(4), Slave, "pointer"), [0])], map[4 := 0], []))
    ensures AddDevice(Empty, NewDevice(4, "X", Some(4), Slave, "pointer")) == Err(MissingParent(Some(4)))
  {
    var d := NewDevice(4, "X", Some(4), Slave, "pointer");
    assert "pointer"[0] != FloatingType[0];
    assert IsNestedSlave(d);
    var b := Push(Empty, d);
    assert b == Arena([Node(d, [])], map[4 := 0], []);
    assert b.nodes[0].kids + [0] == [0];
    assert AddKid(b, 0, 0).nodes == [Node(d, [0])];
  }

  // ---------------------------------------------------------------------
  // Every update keeps each object reachable exactly once

  /** `b` keeps the references of every object of `a`. */
  predicate SameKids(a: Arena, b: Arena) {
    |a.nodes| <= |b.nodes| && forall j :: 0 <= j < |a.nodes| ==> b.nodes[j].kids == a.nodes[j].kids
  }

  /** `b` is `a` with a new childless object, attached as the last child
      of object `p`. */
  predicate Grown(a: Arena, b: Arena, p: nat) {
    |b.nodes| == |a.nodes| + 1 && p < |a.nodes| && b.nodes[|a.nodes|].kids == [] &&
    b.nodes[p].kids == a.nodes[p].kids + [|a.nodes|] &&
    forall j :: 0 <= j < |a.nodes| && j != p ==> b.nodes[j].kids == a.nodes[j].kids
  }

  lemma {:induction false} FrameOcc(a: Arena, b: Arena, i: nat, x: nat)
    requires WellFormed(a) && WellFormed(b) && SameKids(a, b) && i < |a.nodes|
    ensures Occ(b, i, x) == Occ(a, i, x) && Size(b, i) == Size(a, i)
    decreases |a.nodes| - i, 1, 0
  {
    FrameOccAll(a, b, a.nodes[i].kids, i + 1, x);
  }

  lemma {:induction false} FrameOccAll(a: Arena, b: Arena, ks: seq<nat>, lo: nat, x: nat)
    requires WellFormed(a) && WellFormed(b) && SameKids(a, b) && lo <= |a.nodes|
    requires forall j :: 0 <= j < |ks| ==> lo <= ks[j] < |a.nodes|
    ensures OccAll(b, ks, lo, x) == OccAll(a, ks, lo, x) && SizeAll(b, ks, lo) == SizeAll(a, ks, lo)
    decreases |a.nodes| - lo + 1, 0, |ks|
  {
    if ks != [] {
      FrameOcc(a, b, ks[0], x);
      FrameOccAll(a, b, ks[1..], lo, x);
    }
  }

  /** Attaching a new object under `p` makes it reached once wherever `p`
      is reached, and changes nothing else. */
  lemma {:induction false} GrowOcc(a: Arena, b: Arena, p: nat, i: nat, x: nat)
    requires WellFormed(a) && WellFormed(b) && Grown(a, b, p) && i < |a.nodes|
    ensures Occ(b, i, x) == (if x == |a.nodes| then Occ(a, i, p) else Occ(a, i, x))
    ensures Size(b, i) == Size(a, i) + Occ(a, i, p)
    decreases |a.nodes| - i, 1, 0
  {
    var ks := a.nodes[i].kids;
    GrowOccAll(a, b, p, ks, i + 1, x);
    if i == p {
      var n := |a.nodes|;
      AllConcat(b, ks, [n], i + 1, x);
      assert OccAll(b, [n], i + 1, x) == Occ(b, n, x);
      assert SizeAll(b, [n], i + 1) == Size(b, n);
      assert Occ(b, n, x) == if x == n then 1 else 0;
    }
  }

  lemma {:induction false} GrowOccAll(a: Arena, b: Arena, p: nat, ks: seq<nat>, lo: nat, x: nat)
    requires WellFormed(a) && WellFormed(b) && Grown(a, b, p) && lo <= |a.nodes|
    requires forall j :: 0 <= j < |ks| ==> lo <= ks[j] < |a.nodes|
    ensures OccAll(b, ks, lo, x) == (if x == |a.nodes| then OccAll(a, ks, lo, p) else OccAll(a, ks, lo, x))
    ensures SizeAll(b, ks, lo) == SizeAll(a, ks, lo) + OccAll(a, ks, lo, p)
    decreases |a.nodes| - lo + 1, 0, |ks|
  {
    if ks != [] {
      GrowOcc(a, b, p, ks[0], x);
      GrowOccAll(a, b, p, ks[1..], lo, x);
    }
  }

  /** A new object appended to the top-level list. */
  lemma AddRootOnce(a: Arena, b: Arena)
    requires WellFormed(a) && WellFormed(b) && EachOnce(a)
    requires SameKids(a, b) && |b.nodes| == |a.nodes| + 1 && b.nodes[|a.nodes|].kids == []
    requires b.roots == a.roots + [|a.nodes|]
    ensures EachOnce(b)
  {
    var n := |a.nodes|;
    FrameOccAll(a, b, a.roots, 0, 0);
    AllConcat(b, a.roots, [n], 0, 0);
    assert SizeAll(b, [n], 0) == Size(b, n) == 1;
    forall x: nat
      ensures OccAll(b, b.roots, 0, x) == (if x < |b.nodes| then 1 else 0)
    {
      FrameOccAll(a, b, a.roots, 0, x);
      AllConcat(b, a.roots, [n], 0, x);
      assert [n][1..] == [];
      assert OccAll(b, [n], 0, x) == Occ(b, n, x) == if x == n then 1 else 0;
      if x == n {
        OccAllOutside(a, a.roots, 0, x);
      }
    }
  }

  /** A new object attached under an existing one. */
  lemma AddKidOnce(a: Arena, b: Arena, p: nat)
    requires WellFormed(a) && WellFormed(b) && EachOnce(a)
    requires Grown(a, b, p) && b.roots == a.roots
    ensures EachOnce(b)
  {
    GrowOccAll(a, b, p, a.roots, 0, 0);
    forall x: nat
      ensures OccAll(b, b.roots, 0, x) == (if x < |b.nodes| then 1 else 0)
    {
      GrowOccAll(a, b, p, a.roots, 0, x);
    }
  }

  /** Clearing `enabled` moves no reference. */
  lemma DisableOnce(a: Arena, j: nat)
    requires WellFormed(a) && EachOnce(a) && j < |a.nodes|
    ensures WellFormed(Disable(a, j)) && EachOnce(Disable(a, j))
  {
    var b := Disable(a, j);
    FrameOccAll(a, b, a.roots, 0, 0);
    forall x: nat
      ensures OccAll(b, b.roots, 0, x) == (if x < |b.nodes| then 1 else 0)
    {
      FrameOccAll(a, b, a.roots, 0, x);
    }
  }

  /** `AddDevice` keeps every object reachable exactly once: each device
      parsed so far sits at exactly one place of the forest. */
  lemma AddDeviceOnce(a: Arena, d: Device)
    requires WellFormed(a) && EachOnce(a) && AddDevice(a, d).Ok?
    ensures EachOnce(AddDevice(a, d).value)
  {
    var b := AddDevice(a, d).value;
    if IsNestedSlave(d) {
      AddKidOnce(a, b, a.index[d.parentId.value]);
    } else {
      AddRootOnce(a, b);
    }
  }

  /** The empty arena trivially reaches each of its (no) objects once. */
  lemma EmptyOnce()
    ensures WellFormed(Empty) && EachOnce(Empty)
  {
  }

  /** The forest of an arena whose objects are each reached once holds
      every object's device, and as many devices as were created. */
  lemma ForestCount(a: Arena)
    requires WellFormed(a) && EachOnce(a)
    ensures forall x :: 0 <= x < |a.nodes| ==> InForest(Bare(a.nodes[x].device), Forest(a))
    ensures CountAll(Forest(a)) == |a.nodes|
  {
    forall x | 0 <= x < |a.nodes|
      ensures InForest(Bare(a.nodes[x].device), Forest(a))
    {
      assert OccAll(a, a.roots, 0, x) == 1;
      BuildAllHolds(a, a.roots, 0, x);
    }
    CountBuildAll(a, a.roots, 0);
  }

  /** The tree built from object `i` holds the device of every object
      that `i` reaches. */
  lemma {:induction false} BuildHolds(a: Arena, i: nat, x: nat)
    requires WellFormed(a) && i < |a.nodes| && x < |a.nodes| && Occ(a, i, x) > 0
    ensures InTree(Bare(a.nodes[x].device), Build(a, i))
    decreases |a.nodes| - i, 1, 0
  {
    if i != x {
      BuildAllHolds(a, a.nodes[i].kids, i + 1, x);
    }
  }

  lemma {:induction false} BuildAllHolds(a: Arena, ks: seq<nat>, lo: nat, x: nat)
    requires WellFormed(a) && lo <= |a.nodes| && x < |a.nodes|
    requires forall j :: 0 <= j < |ks| ==> lo <= ks[j] < |a.nodes|
    requires OccAll(a, ks, lo, x) > 0
    ensures InForest(Bare(a.nodes[x].device), BuildAll(a, ks, lo))
    decreases |a.nodes| - lo + 1, 0, |ks|
  {
    var ds := BuildAll(a, ks, lo);
    assert ds[1..] == BuildAll(a, ks[1..], lo);
    if Occ(a, ks[0], x) > 0 {
      BuildHolds(a, ks[0], x);
    } else {
      BuildAllHolds(a, ks[1..], lo, x);
    }
  }

  /** Every device of a tree: the root, then each child's subtree. */
  predicate AllEnabled(d: Device)
    decreases d, 1
  {
    d.enabled && AllEnabledIn(d.children)
  }

  predicate AllEnabledIn(ds: seq<Device>)
    decreases ds, 0
  {
    forall j :: 0 <= j < |ds| ==> AllEnabled(ds[j])
  }

  /** When no object has been disabled, nothing in the forest is. */
  lemma {:induction false} BuildEnabled(a: Arena, i: nat)
    requires WellFormed(a) && i < |a.nodes|
    requires forall j :: 0 <= j < |a.nodes| ==> a.nodes[j].device.enabled
    ensures AllEnabled(Build(a, i))
    decreases |a.nodes| - i, 1, 0
  {
    BuildAllEnabled(a, a.nodes[i].kids, i + 1);
  }

  lemma {:induction false} BuildAllEnabled(a: Arena, ks: seq<nat>, lo: nat)
    requires WellFormed(a) && lo <= |a.nodes|
    requires forall j :: 0 <= j < |ks| ==> lo <= ks[j] < |a.nodes|
    requires forall j :: 0 <= j < |a.nodes| ==> a.nodes[j].device.enabled
    ensures AllEnabledIn(BuildAll(a, ks, lo))
    decreases |a.nodes| - lo + 1, 0, |ks|
  {
    var ds := BuildAll(a, ks, lo);
    forall j | 0 <= j < |ks|
      ensures AllEnabled(ds[j])
    {
      BuildEnabled(a, ks[j]);
    }
  }
}

=== FILE: chars.dfy ===
/** Character classes used by the `xinput` line grammar, and the maximal
    run ("span") of a class at the front of a string. */
module Chars {

  /** Whitespace: the ASCII members of Python's `\s` (and of
      `str.isspace`): blank, tab, the line and page breaks, and the four
      separators U+001C to U+001F. */
  predicate IsSpace(c: char) {
    c == ' ' || c == '\t' || c == '\n' || c == '\r' || c == '\U{000B}' || c == '\U{000C}' ||
    ('\U{001C}' <= c <= '\U{001F}')
  }

  /** Decimal digits: the ASCII members of Python's `\d`. */
  predicate IsDigit(c: char) {
    '0' <= c <= '9'
  }

  /** Word characters: the ASCII members of Python's `\w`. */
  predicate IsWordChar(c: char) {
    ('a' <= c <= 'z') || ('A' <= c <= 'Z') || IsDigit(c) || c == '_'
  }

  /** The three classes the grammar repeats with `+`. */
  datatype CharClass = Space | Digit | Word

  predicate InClass(c: char, cls: CharClass) {
    match cls
    case Space => IsSpace(c)
    case Digit => IsDigit(c)
    case Word => IsWordChar(c)
  }

  /** Every character of `s` belongs to `cls`. */
  predicate AllIn(s: string, cls: CharClass) {
    forall i :: 0 <= i < |s| ==> InClass(s[i], cls)
  }

  /** A non-empty run of `cls`: what `\s+`, `\d+` or `\w+` matches. */
  predicate IsRun(s: string, cls: CharClass) {
    |s| >= 1 && AllIn(s, cls)
  }

  /** Length of the longest prefix of `s` made of `cls` characters. */
  function Span(s: string, cls: CharClass): (n: nat)
    ensures n <= |s|
    ensures AllIn(s[..n], cls)
    ensures n < |s| ==> !InClass(s[n], cls)
  {
    if s == [] || !InClass(s[0], cls) then 0
    else
      var n := 1 + Span(s[1..], cls);
      assert s[..n] == [s[0]] + s[1..][..n - 1];
      n
  }

  /** The span of a run followed by a character outside the class is the
      run itself: maximal munch never overshoots a class boundary. */
  lemma {:induction false} SpanOfRun(x: string, y: string, cls: CharClass)
    requires AllIn(x, cls)
    requires y == [] || !InClass(y[0], cls)
    ensures Span(x + y, cls) == |x|
    decreases |x|
  {
    if x != [] {
      assert (x + y)[1..] == x[1..] + y;
      SpanOfRun(x[1..], y, cls);
    }
  }

  /** Value of a string of decimal digits, most significant first, as
      Python's `int()` reads it (leading zeros allowed). */
  function DigitsValue(s: string): (v: nat)
    requires AllIn(s, Digit)
    decreases |s|
  {
    if s == [] then 0
    else DigitsValue(s[..|s| - 1]) * 10 + (s[|s| - 1] as int - '0' as int)
  }

  /** Decimal rendering of a number, the inverse direction of `DigitsValue`. */
  function DigitsOf(v: nat): (s: string)
    ensures IsRun(s, Digit)
    ensures DigitsValue(s) == v
    decreases v
  {
    var last := (('0' as int) + v % 10) as char;
    if v < 10 then
      assert DigitsValue([last]) == DigitsValue([]) * 10 + v;
      [last]
    else
      var s := DigitsOf(v / 10) + [last];
      assert s[..|s| - 1] == DigitsOf(v / 10);
      s
  }
}

=== FILE: devices.dfy ===
/** The `Device` record of `inputdeviceindicator/command.py`, the failures
    the parser can raise, and the size of a device tree. */
module Devices {
  import opened Maybe

  /** `master` or `slave`, the level word captured from the bracket. */
  datatype Level = Master | Slave

  /** One entry of the listing. `children` holds the devices attached to
      this one, in the order they were attached. */
  datatype Device = Device(
    id: nat,
    name: string,
    parentId: Option<nat>,
    level: Level,
    deviceType: string,
    enabled: bool,
    children: seq<Device>)
  {
    /** `add_child`: attach `child` as the new last child. */
    function AddChild(child: Device): (r: Device)
      ensures |r.children| == |children| + 1
      ensures r.children[..|children|] == children
      ensures r.children[|children|] == child
      ensures Bare(r) == Bare(this)
      ensures Count(r) == Count(this) + Count(child)
    {
      var r := this.(children := children + [child]);
      CountAppend(children, child);
      r
    }
  }

  /** The type word that marks a floating device. */
  const FloatingType: string := "floating"

  /** A device the constructor just built: it holds the given fields, is
      enabled, and has no children. */
  function NewDevice(id: nat, name: string, parentId: Option<nat>, level: Level, deviceType: string): (d: Device)
    ensures d.id == id && d.name == name && d.parentId == parentId
    ensures d.level == level && d.deviceType == deviceType
    ensures d.enabled && d.children == []
    ensures Count(d) == 1
  {
    Device(id, name, parentId, level, deviceType, true, [])
  }

  /** The device's own fields, without its children. */
  function Bare(d: Device): Device {
    d.(children := [])
  }

  /** A non-floating slave: the only kind of device the parser hangs under
      a parent instead of adding to the top-level list. */
  predicate IsNestedSlave(d: Device) {
    d.level == Slave && d.deviceType != FloatingType
  }

  /** Why a parse fails: the line did not match the device-line grammar
      (`ValueError`), the parent id names no device seen so far
      (`KeyError`), or a disabled marker came before any device line (the
      unbound local `device`). */
  datatype ParseError =
    | NoMatch(line: string)
    | MissingParent(parentId: Option<nat>)
    | MarkerBeforeDevice

  /** Number of devices in a tree, the root included. */
  function Count(d: Device): nat
    decreases d, 1
  {
    1 + CountAll(d.children)
  }

  /** Number of devices in a forest, every level included. */
  function CountAll(ds: seq<Device>): nat
    decreases ds, 0
  {
    if ds == [] then 0
    else Count(ds[0]) + CountAll(ds[1..])
  }

  /** `e` is, children aside, the root of `d` or a device below it. */
  predicate InTree(e: Device, d: Device)
    decreases d, 1
  {
    Bare(d) == e || InForest(e, d.children)
  }

  /** `e` is, children aside, a device of the forest `ds` at any level. */
  predicate InForest(e: Device, ds: seq<Device>)
    decreases ds, 0
  {
    ds != [] && (InTree(e, ds[0]) || InForest(e, ds[1..]))
  }

  /** Counting a forest distributes over concatenation. */
  lemma {:induction false} CountAllConcat(a: seq<Device>, b: seq<Device>)
    ensures CountAll(a + b) == CountAll(a) + CountAll(b)
    decreases |a|
  {
    if a != [] {
      assert (a + b)[0] == a[0];
      assert (a + b)[1..] == a[1..] + b;
      CountAllConcat(a[1..], b);
    } else {
      assert a + b == b;
    }
  }

  lemma CountAppend(ds: seq<Device>, d: Device)
    ensures CountAll(ds + [d]) == CountAll(ds) + Count(d)
  {
    CountAllConcat(ds, [d]);
    assert [d][1..] == [];
  }
}

=== FILE: legacy_parser.dfy ===
/** `parse` of the older module `xinputindicator/command.py`. It has the
    same line grammar (`LINE_REGEX` is `MAIN_LINE_REGEX` under another
    name) and the same loop body, but skips only empty lines: it knows
    neither subordinate detail lines nor the disabled marker, and its
    `Device` has no `enabled` field. The model reuses the loop of
    `ListingParser` with a narrower line classification; `enabled` stays
    at its initial value throughout. */
module LegacyParser {
  import opened Maybe
  import opened Text
  import opened Devices
  import opened LineGrammar
  import opened Arenas
  import opened ListingParser

  /** The older loop's test: an empty line is skipped, every other line
      goes to `parse_line`. */
  function ClassifyLegacy(line: string): (k: LineKind)
    ensures k.Skip? <==> line == []
    ensures k.Skip? ==> !k.disables
    ensures k.DeviceLine? ==> ParseLine(line) == Ok(k.device)
    ensures k.Malformed? ==> k.line == line && ParseLine(line).Err?
  {
    if line == [] then Skip(false)
    else
      match ParseLine(line)
      case Ok(d) => DeviceLine(d)
      case Err(_) => Malformed(line)
  }

  function LegacyKinds(text: string): (ks: seq<LineKind>)
    ensures |ks| == |Split(text)|
    ensures forall i :: 0 <= i < |ks| ==> ks[i] == ClassifyLegacy(Split(text)[i])
  {
    var lines := Split(text);
    seq(|lines|, i requires 0 <= i < |lines| => ClassifyLegacy(lines[i]))
  }

  /** The older `parse`. */
  function ParseLegacy(text: string): (r: Result<seq<Device>, ParseError>)
    ensures r.Ok? ==> CountAll(r.value) == |Devs(LegacyKinds(text))|
  {
    var a :- Run(LegacyKinds(text));
    ForestCount(a);
    Ok(Forest(a))
  }

  /** The older `parse` succeeds exactly on the valid listings and then
      returns the forest of the declared object graph, in which every
      device is enabled. */
  lemma LegacyMatchesReference(text: string)
    ensures ParseLegacy(text).Ok? <==> Valid(LegacyKinds(text))
    ensures ParseLegacy(text).Ok? ==>
      WellFormed(RefArena(LegacyKinds(text))) && ParseLegacy(text).value == Forest(RefArena(LegacyKinds(text)))
    ensures ParseLegacy(text).Ok? ==> AllEnabledIn(ParseLegacy(text).value)
  {
    var kinds := LegacyKinds(text);
    RunMatchesReference(kinds);
    RefWellFormed(kinds);
    if Run(kinds).Ok? {
      LegacyNoMarker(text);
      NoMarkerAllEnabled(kinds);
    }
  }

  /** The older loop reads fresh devices and never sees a marker. */
  lemma LegacyNoMarker(text: string)
    ensures Fresh(LegacyKinds(text))
    ensures forall i :: 0 <= i < |LegacyKinds(text)| ==> LegacyKinds(text)[i] != Skip(true)
  {
  }

  /** Any non-empty line the grammar rejects, a detail line of the long
      listing among them, makes the older `parse` fail. */
  lemma LegacyRejects(text: string, i: nat)
    requires i < |Split(text)| && Split(text)[i] != [] && !Matches(Split(text)[i])
    ensures ParseLegacy(text).Err?
  {
    var kinds := LegacyKinds(text);
    ParseLineMatches(Split(text)[i]);
    assert LineError(Devs(kinds[..i]), kinds[i]).Some?;
    RunMatchesReference(kinds);
  }

  /** On a listing without subordinate lines the two versions agree. */
  lemma LegacyAgrees(text: string)
    requires forall i :: 0 <= i < |Split(text)| ==> !IsSubordinate(Split(text)[i])
    ensures ParseLegacy(text) == Parse(text)
  {
    var lines := Split(text);
    forall i | 0 <= i < |lines|
      ensures ClassifyLegacy(lines[i]) == Classify(lines[i])
    {
      if lines[i] == [] {
        assert !OccursAt(lines[i], DisabledMarker, 0);
      }
    }
    assert LegacyKinds(text) == Kinds(text);
  }
}

=== FILE: line_grammar.dfy ===
/** The grammar of one device line of `xinput list --long`, as the regular
    expression `MAIN_LINE_REGEX` (and the identical `LINE_REGEX` of the
    older module) describes it:

      [~⎡⎜⎣]? (\s+↳)? \s+ NAME \s+ id=ID \s+
        \[ ( LEVEL \s+ TYPE \s+ \(PARENT\) | floating \s+ LEVEL ) \]

    searched for anywhere in the line. The grammar is declared twice: as
    predicates saying which decompositions of a line fit it (`TailForm`,
    `LeadForm`, `Candidate`), and as a recognizer that reads the line
    left to right (`ParseTail`, `Recognize`). The lemmas prove the two
    agree, including which decomposition the regular expression picks
    when several fit: the leftmost start, the longest lead, the longest
    name. */
module LineGrammar {
  import opened Maybe
  import opened Chars
  import opened Text
  import opened Devices

  /** `↳`, the connector drawn before a slave device. */
  const Arrow: char := '\U{21B3}'

  /** `~ ⎡ ⎜ ⎣`, the tree glyphs that may open a device line. */
  predicate IsTreeGlyph(c: char) {
    c == '~' || c == '\U{23A1}' || c == '\U{239C}' || c == '\U{23A3}'
  }

  /** The bracketed descriptor: `[LEVEL TYPE (PARENT)]` or
      `[floating LEVEL]`. */
  datatype Bracket =
    | Attached(level: Level, deviceType: string, parentId: nat)
    | Floating(level: Level)

  /** What the part of the line after the name carries. */
  datatype Tail = Tail(id: nat, bracket: Bracket)

  function LevelWord(lv: Level): string {
    match lv
    case Master => "master"
    case Slave => "slave"
  }

  // ---------------------------------------------------------------------
  // Declared grammar (concatenations are nested to the right, so that
  // each piece is followed by everything after it)

  /** `u` is a descriptor, its closing `]`, and any text after it. */
  ghost predicate BracketForm(u: string, br: Bracket) {
    match br
    case Attached(lv, ty, pid) =>
      IsRun(ty, Word) &&
      exists w1, w2, ds, rest ::
        IsRun(w1, Space) && IsRun(w2, Space) && IsRun(ds, Digit) && DigitsValue(ds) == pid &&
        u == LevelWord(lv) + (w1 + (ty + (w2 + ("(" + (ds + (")]" + rest))))))
    case Floating(lv) =>
      exists w, rest :: IsRun(w, Space) && u == FloatingType + (w + (LevelWord(lv) + ("]" + rest)))
  }

  /** `t` is the part of a device line from the blank before `id=` on. */
  ghost predicate TailForm(t: string, tl: Tail) {
    exists w1, ds, w2, u ::
      IsRun(w1, Space) && IsRun(ds, Digit) && DigitsValue(ds) == tl.id && IsRun(w2, Space) &&
      BracketForm(u, tl.bracket) && t == w1 + ("id=" + (ds + (w2 + ("[" + u))))
  }

  /** `\s+↳`: blanks, then the connector. */
  predicate ArrowLead(x: string) {
    |x| >= 2 && IsRun(x[..|x| - 1], Space) && x[|x| - 1] == Arrow
  }

  /** `[~⎡⎜⎣]?(\s+↳)?`: the decorative prefix before the name. */
  predicate LeadForm(x: string) {
    x == [] || (IsTreeGlyph(x[0]) && (|x| == 1 || ArrowLead(x[1..]))) || ArrowLead(x)
  }

  /** A match starting at `s`: the prefix `line[s..L]`, at least one blank
      at `L`, the name up to `P`, and the tail from `P` on. */
  ghost predicate Candidate(line: string, s: nat, L: nat, P: nat, tl: Tail) {
    s <= L < P <= |line| && LeadForm(line[s..L]) && IsSpace(line[L]) && TailForm(line[P..], tl)
  }

  /** The match a backtracking `re.search` reports: no candidate starts
      further left, none at the same start has a longer prefix, none has
      a longer name. */
  ghost predicate Preferred(line: string, s: nat, L: nat, P: nat, tl: Tail) {
    Candidate(line, s, L, P, tl) &&
    forall s': nat, L': nat, P': nat, tl': Tail :: Candidate(line, s', L', P', tl') ==>
      s <= s' && (s' == s ==> L' <= L) && P' <= P
  }

  /** Some decomposition of the line fits the grammar. */
  ghost predicate Matches(line: string) {
    exists s: nat, L: nat, P: nat, tl: Tail :: Candidate(line, s, L, P, tl)
  }

  /** The device a match describes: `parse_line` reads the id, strips the
      name, and takes parent, level and type from the bracket form. */
  function MakeDevice(name: string, tl: Tail): (d: Device)
    ensures d.id == tl.id && d.name == name && d.enabled && d.children == []
    ensures tl.bracket.Attached? ==>
      d.parentId == Some(tl.bracket.parentId) && d.level == tl.bracket.level && d.deviceType == tl.bracket.deviceType
    ensures tl.bracket.Floating? ==>
      d.parentId == None && d.level == tl.bracket.level && d.deviceType == FloatingType
  {
    match tl.bracket
    case Attached(lv, ty, pid) => NewDevice(tl.id, name, Some(pid), lv, ty)
    case Floating(lv) => NewDevice(tl.id, name, None, lv, FloatingType)
  }

  // ---------------------------------------------------------------------
  // Recognizer

  /** Consume a maximal non-empty run of `cls` (`\s+`, `\d+`, `\w+`). */
  function SkipRun(s: string, cls: CharClass): (r: Option<string>)
    ensures r.Some? <==> Span(s, cls) >= 1
    ensures r.Some? ==> IsRun(s[..Span(s, cls)], cls) && s == s[..Span(s, cls)] + r.value
    ensures r.Some? ==> r.value == [] || !InClass(r.value[0], cls)
  {
    var n := Span(s, cls);
    if n == 0 then None
    else
      assert s == s[..n] + s[n..];
      Some(s[n..])
  }

  /** A run followed by a character outside its class is skipped whole. */
  lemma SkipRunOf(w: string, r: string, cls: CharClass)
    requires IsRun(w, cls)
    requires r == [] || !InClass(r[0], cls)
    ensures SkipRun(w + r, cls) == Some(r)
  {
    SpanOfRun(w, r, cls);
    assert (w + r)[|w|..] == r;
  }

  /** The longest run at the front, and what follows it. */
  lemma TakeRun(s: string, cls: CharClass)
    ensures s == s[..Span(s, cls)] + s[Span(s, cls)..]
    ensures s[Span(s, cls)..] == [] || !InClass(s[Span(s, cls)..][0], cls)
  {
  }

  /** Consume the literal `lit`. */
  function SkipLit(s: string, lit: string): (r: Option<string>)
    ensures r.Some? <==> StartsWith(s, lit)
    ensures r.Some? ==> s == lit + r.value
  {
    if StartsWith(s, lit) then
      assert s == s[..|lit|] + s[|lit|..];
      Some(s[|lit|..])
    else None
  }

  lemma SkipLitOf(lit: string, r: string)
    ensures SkipLit(lit + r, lit) == Some(r)
  {
    assert (lit + r)[..|lit|] == lit;
    assert (lit + r)[|lit|..] == r;
  }

  /** Consume `master|slave`. */
  function ReadLevel(s: string): (r: Option<(Level, string)>)
    ensures r.Some? ==> s == LevelWord(r.value.0) + r.value.1
  {
    if StartsWith(s, "master") then
      assert s == s[..6] + s[6..];
      Some((Master, s[6..]))
    else if StartsWith(s, "slave") then
      assert s == s[..5] + s[5..];
      Some((Slave, s[5..]))
    else None
  }

  lemma ReadLevelOf(lv: Level, r: string)
    ensures ReadLevel(LevelWord(lv) + r) == Some((lv, r))
  {
    var s := LevelWord(lv) + r;
    assert s[..|LevelWord(lv)|] == LevelWord(lv);
    assert s[|LevelWord(lv)|..] == r;
    if lv == Slave {
      assert s[0] == 's';
    }
  }

  /** A string opening with `f` holds no level word at its front. */
  lemma ReadLevelNotF(s: string)
    requires |s| >= 1 && s[0] == 'f'
    ensures ReadLevel(s).None?
  {
  }

  /** Read `(PARENT)]`. */
  function ParseParent(r: string): Option<nat> {
    var r1 :- SkipLit(r, "(");
    var m := Span(r1, Digit);
    if m == 0 then None
    else
      var _ :- SkipLit(r1[m..], ")]");
      Some(DigitsValue(r1[..m]))
  }

  /** Read `\s+TYPE\s+(PARENT)]`, what follows the level word. */
  function ParseAttached(lv: Level, r: string): Option<Bracket> {
    var r1 :- SkipRun(r, Space);
    var n := Span(r1, Word);
    if n == 0 then None
    else
      var r2 :- SkipRun(r1[n..], Space);
      var pid :- ParseParent(r2);
      Some(Attached(lv, r1[..n], pid))
  }

  /** Read `floating\s+LEVEL]`. */
  function ParseFloating(u: string): Option<Bracket> {
    var r1 :- SkipLit(u, FloatingType);
    var r2 :- SkipRun(r1, Space);
    var lr :- ReadLevel(r2);
    var _ :- SkipLit(lr.1, "]");
    Some(Floating(lr.0))
  }

  /** Read the descriptor after `[`, up to and including `]`; the
      alternatives are tried in the order the expression lists them. */
  function ParseBracket(u: string): Option<Bracket> {
    match ReadLevel(u)
    case Some((lv, r)) => ParseAttached(lv, r)
    case None => ParseFloating(u)
  }

  /** Read `ID\s+[...]`, what follows `id=`. */
  function ParseIdBracket(r: string): Option<Tail> {
    var n := Span(r, Digit);
    if n == 0 then None
    else
      var r1 :- SkipRun(r[n..], Space);
      var r2 :- SkipLit(r1, "[");
      var br :- ParseBracket(r2);
      Some(Tail(DigitsValue(r[..n]), br))
  }

  /** Read `\s+id=ID\s+[...]` from the front of `t`. */
  function ParseTail(t: string): Option<Tail> {
    var r1 :- SkipRun(t, Space);
    var r2 :- SkipLit(r1, "id=");
    ParseIdBracket(r2)
  }

  // ---------------------------------------------------------------------
  // The recognizer reads exactly the declared tails

  lemma BracketSound(u: string)
    requires ParseBracket(u).Some?
    ensures BracketForm(u, ParseBracket(u).value)
  {
    if ReadLevel(u).Some? {
      AttachedSound(u);
    } else {
      FloatingSound(u);
    }
  }

  lemma ParentSound(r: string)
    requires ParseParent(r).Some?
    ensures exists ds, rest :: IsRun(ds, Digit) && DigitsValue(ds) == ParseParent(r).value && r == "(" + (ds + (")]" + rest))
  {
    var r1 := SkipLit(r, "(").value;
    var m := Span(r1, Digit);
    var ds := r1[..m];
    TakeRun(r1, Digit);
    var rest := SkipLit(r1[m..], ")]").value;
    assert r == "(" + (ds + (")]" + rest));
  }

  lemma AttachedSound(u: string)
    requires ReadLevel(u).Some? && ParseBracket(u).Some?
    ensures BracketForm(u, ParseBracket(u).value)
  {
    var (lv, r) := ReadLevel(u).value;
    var r1 := SkipRun(r, Space).value;
    var w1 := r[..Span(r, Space)];
    var n := Span(r1, Word);
    var ty := r1[..n];
    TakeRun(r1, Word);
    var r2 := SkipRun(r1[n..], Space).value;
    var w2 := r1[n..][..Span(r1[n..], Space)];
    ParentSound(r2);
    var ds, rest :| IsRun(ds, Digit) && DigitsValue(ds) == ParseParent(r2).value && r2 == "(" + (ds + (")]" + rest));
    assert ParseBracket(u).value == Attached(lv, ty, DigitsValue(ds));
    assert r1 == ty + (w2 + r2);
    assert u == LevelWord(lv) + (w1 + (ty + (w2 + ("(" + (ds + (")]" + rest))))));
  }

  lemma FloatingSound(u: string)
    requires ReadLevel(u).None? && ParseBracket(u).Some?
    ensures BracketForm(u, ParseBracket(u).value)
  {
    var r1 := SkipLit(u, FloatingType).value;
    var r2 := SkipRun(r1, Space).value;
    var w := r1[..Span(r1, Space)];
    var lr := ReadLevel(r2).value;
    var rest := SkipLit(lr.1, "]").value;
    assert u == FloatingType + (w + (LevelWord(lr.0) + ("]" + rest)));
  }

  lemma BracketComplete(u: string, br: Bracket)
    requires BracketForm(u, br)
    ensures ParseBracket(u) == Some(br)
  {
    match br
    case Attached(lv, ty, pid) =>
      var w1, w2, ds, rest :|
        IsRun(w1, Space) && IsRun(w2, Space) && IsRun(ds, Digit) && DigitsValue(ds) == pid &&
        u == LevelWord(lv) + (w1 + (ty + (w2 + ("(" + (ds + (")]" + rest))))));
      var r4 := ds + (")]" + rest);
      var r3 := "(" + r4;
      var r2 := ty + (w2 + r3);
      ReadLevelOf(lv, w1 + r2);
      SkipRunOf(w1, r2, Space);
      SpanOfRun(ty, w2 + r3, Word);
      assert r2[..|ty|] == ty && r2[|ty|..] == w2 + r3;
      SkipRunOf(w2, r3, Space);
      SkipLitOf("(", r4);
      SpanOfRun(ds, ")]" + rest, Digit);
      assert r4[..|ds|] == ds && r4[|ds|..] == ")]" + rest;
      SkipLitOf(")]", rest);
      assert ParseParent(r3) == Some(pid);
    case Floating(lv) =>
      var w, rest :| IsRun(w, Space) && u == FloatingType + (w + (LevelWord(lv) + ("]" + rest)));
      var r2 := LevelWord(lv) + ("]" + rest);
      ReadLevelNotF(u);
      SkipLitOf(FloatingType, w + r2);
      SkipRunOf(w, r2, Space);
      ReadLevelOf(lv, "]" + rest);
      SkipLitOf("]", rest);
  }

  lemma TailSound(t: string)
    requires ParseTail(t).Some?
    ensures TailForm(t, ParseTail(t).value)
  {
    var r1 := SkipRun(t, Space).value;
    var w1 := t[..Span(t, Space)];
    var r2 := SkipLit(r1, "id=").value;
    var n := Span(r2, Digit);
    var ds := r2[..n];
    TakeRun(r2, Digit);
    var r3 := SkipRun(r2[n..], Space).value;
    var w2 := r2[n..][..Span(r2[n..], Space)];
    var u := SkipLit(r3, "[").value;
    BracketSound(u);
    assert ParseTail(t).value == Tail(DigitsValue(ds), ParseBracket(u).value);
    assert r2 == ds + (w2 + ("[" + u));
    assert t == w1 + ("id=" + (ds + (w2 + ("[" + u))));
  }

  lemma TailComplete(t: string, tl: Tail)
    requires TailForm(t, tl)
    ensures ParseTail(t) == Some(tl)
  {
    var w1, ds, w2, u :|
      IsRun(w1, Space) && IsRun(ds, Digit) && DigitsValue(ds) == tl.id && IsRun(w2, Space) &&
      BracketForm(u, tl.bracket) && t == w1 + ("id=" + (ds + (w2 + ("[" + u))));
    var r3 := "[" + u;
    var r2 := ds + (w2 + r3);
    SkipRunOf(w1, "id=" + r2, Space);
    SkipLitOf("id=", r2);
    IdBracketComplete(ds, w2, u, tl);
  }

  lemma IdBracketComplete(ds: string, w2: string, u: string, tl: Tail)
    requires IsRun(ds, Digit) && DigitsValue(ds) == tl.id && IsRun(w2, Space) && BracketForm(u, tl.bracket)
    ensures ParseIdBracket(ds + (w2 + ("[" + u))) == Some(tl)
  {
    var r3 := "[" + u;
    var r2 := ds + (w2 + r3);
    SpanOfRun(ds, w2 + r3, Digit);
    assert r2[..|ds|] == ds && r2[|ds|..] == w2 + r3;
    SkipRunOf(w2, r3, Space);
    SkipLitOf("[", u);
    BracketComplete(u, tl.bracket);
  }

  /** The tail recognizer accepts exactly the declared tails, and reads
      from each the one `Tail` it carries. */
  lemma TailExact(t: string, tl: Tail)
    ensures ParseTail(t) == Some(tl) <==> TailForm(t, tl)
  {
    if ParseTail(t) == Some(tl) {
      TailSound(t);
    }
    if TailForm(t, tl) {
      TailComplete(t, tl);
    }
  }

  // ---------------------------------------------------------------------
  // Whole lines

  /** The ends of every prefix `[~⎡⎜⎣]?(\s+↳)?` that can start at `s`,
      longest first: the order in which the expression tries them. */
  function LeadEnds(line: string, s: nat): (ends: seq<nat>)
    requires s <= |line|
    ensures |ends| >= 1 && ends[|ends| - 1] == s
    ensures forall i :: 0 <= i < |ends| ==> s <= ends[i] <= |line|
    ensures forall i, j :: 0 <= i < j < |ends| ==> ends[i] > ends[j]
  {
    var g := if s < |line| && IsTreeGlyph(line[s]) then 1 else 0;
    var k := Span(line[s + g..], Space);
    var arrow := k >= 1 && s + g + k < |line| && line[s + g + k] == Arrow;
    (if arrow then [s + g + k + 1] else []) + (if g == 1 then [s + 1] else []) + [s]
  }

  /** `LeadEnds` lists exactly the prefixes the grammar allows. */
  lemma LeadEndsExact(line: string, s: nat, L: nat)
    requires s <= L <= |line|
    ensures L in LeadEnds(line, s) <==> LeadForm(line[s..L])
  {
    if L in LeadEnds(line, s) {
      LeadEndsSound(line, s, L);
    }
    if LeadForm(line[s..L]) {
      LeadEndsComplete(line, s, L);
    }
  }

  lemma LeadEndsSound(line: string, s: nat, L: nat)
    requires s <= L <= |line|
    requires L in LeadEnds(line, s)
    ensures LeadForm(line[s..L])
  {
    var g := if s < |line| && IsTreeGlyph(line[s]) then 1 else 0;
    var k := Span(line[s + g..], Space);
    var arrow := k >= 1 && s + g + k < |line| && line[s + g + k] == Arrow;
    var x := line[s..L];
    if arrow && L == s + g + k + 1 {
      assert x[g..] == line[s + g..L];
      assert line[s + g..][..k] == line[s + g..s + g + k];
      assert line[s + g..L] == line[s + g..s + g + k] + [line[s + g + k]];
      assert x[g..][..|x[g..]| - 1] == line[s + g..][..k];
      assert ArrowLead(x[g..]);
    }
  }

  lemma LeadEndsComplete(line: string, s: nat, L: nat)
    requires s <= L <= |line|
    requires LeadForm(line[s..L])
    ensures L in LeadEnds(line, s)
  {
    var x := line[s..L];
    if x != [] && !(IsTreeGlyph(x[0]) && |x| == 1) {
      if IsTreeGlyph(x[0]) {
        assert x[1..] == line[s + 1..L];
        ArrowLeadAt(line, s + 1, L);
      } else {
        assert !IsTreeGlyph(line[s]);
        ArrowLeadAt(line, s, L);
      }
    }
  }

  /** An arrow lead spanning `line[a..L]` is the blank run at `a` and the
      arrow right after it. */
  lemma ArrowLeadAt(line: string, a: nat, L: nat)
    requires a < L <= |line| && ArrowLead(line[a..L])
    ensures Span(line[a..], Space) == L - 1 - a && line[L - 1] == Arrow
  {
    DropLast(line, a, L);
    SpanOfRun(line[a..L - 1], line[L - 1..], Space);
  }

  lemma DropLast(line: string, a: nat, b: nat)
    requires a < b <= |line|
    ensures line[a..b][..b - a - 1] == line[a..b - 1]
    ensures line[a..] == line[a..b - 1] + line[b - 1..]
  {
  }

  /** A blank at `L` before the tail at `T`: `\s+` can follow the prefix
      ending at `L` and the name can run up to `T`. */
  predicate Fits(line: string, L: nat, T: nat) {
    L < T <= |line| && IsSpace(line[L])
  }

  /** The first prefix end in `ends` that fits, which is the longest one
      when `ends` runs from longest to shortest. */
  function FirstFit(line: string, ends: seq<nat>, T: nat): (r: Option<nat>)
    requires forall i, j :: 0 <= i < j < |ends| ==> ends[i] > ends[j]
    ensures r.Some? ==> r.value in ends && Fits(line, r.value, T)
    ensures forall L :: L in ends && Fits(line, L, T) ==> r.Some? && L <= r.value
  {
    if ends == [] then None
    else if Fits(line, ends[0], T) then Some(ends[0])
    else FirstFit(line, ends[1..], T)
  }

  /** `re.search`: the leftmost start, from `s` on, at which some prefix
      fits before the tail at `T`, with the prefix chosen there. */
  function FindStart(line: string, s: nat, T: nat): (r: Option<(nat, nat)>)
    requires T <= |line|
    ensures r.Some? ==> s <= r.value.0 < T && r.value.1 in LeadEnds(line, r.value.0) && Fits(line, r.value.1, T)
    ensures r.Some? ==> forall L :: L in LeadEnds(line, r.value.0) && Fits(line, L, T) ==> L <= r.value.1
    ensures r.Some? ==> forall s', L :: s <= s' < r.value.0 && L in LeadEnds(line, s') ==> !Fits(line, L, T)
    ensures r.None? ==> forall s', L :: s <= s' < T && L in LeadEnds(line, s') ==> !Fits(line, L, T)
    decreases T - s
  {
    if s >= T then None
    else
      match FirstFit(line, LeadEnds(line, s), T)
      case Some(L) => Some((s, L))
      case None => FindStart(line, s + 1, T)
  }

  /** The tail read from each position of the line, `|line| + 1` of them. */
  function Tails(line: string): (ts: seq<Option<Tail>>)
    ensures |ts| == |line| + 1
  {
    seq(|line| + 1, q requires 0 <= q <= |line| => ParseTail(line[q..]))
  }

  /** The last index, at or before `p`, holding a value. */
  function LastSome<T>(ts: seq<Option<T>>, p: nat): (r: Option<(nat, T)>)
    requires p < |ts|
    ensures r.Some? ==> r.value.0 <= p && ts[r.value.0] == Some(r.value.1)
    ensures r.Some? ==> forall q :: r.value.0 < q <= p ==> ts[q].None?
    ensures r.None? ==> forall q :: 0 <= q <= p ==> ts[q].None?
    decreases p
  {
    if ts[p].Some? then Some((p, ts[p].value))
    else if p == 0 then None
    else LastSome(ts, p - 1)
  }

  /** The last position where a tail starts: the greedy name runs up to it. */
  function LastTail(line: string): Option<(nat, Tail)> {
    LastSome(Tails(line), |line|)
  }

  /** `MAIN_LINE_REGEX.search(line)`, read into a device. */
  function Recognize(line: string): Option<Device> {
    match LastTail(line)
    case None => None
    case Some((P, tl)) =>
      match FindStart(line, 0, P)
      case None => None
      case Some((s, L)) => Some(MakeDevice(Strip(line[L..P]), tl))
  }

  /** Whatever `Recognize` reads comes from the match `re.search` picks. */
  lemma RecognizeSound(line: string)
    requires Recognize(line).Some?
    ensures exists s: nat, L: nat, P: nat, tl: Tail ::
      Preferred(line, s, L, P, tl) && Recognize(line).value == MakeDevice(Strip(line[L..P]), tl)
  {
    var ts := Tails(line);
    var (P, tl) := LastTail(line).value;
    var (s, L) := FindStart(line, 0, P).value;
    assert ts[P] == ParseTail(line[P..]);
    TailExact(line[P..], tl);
    LeadEndsExact(line, s, L);
    assert Candidate(line, s, L, P, tl);
    forall s': nat, L': nat, P': nat, tl': Tail | Candidate(line, s', L', P', tl')
      ensures s <= s' && (s' == s ==> L' <= L) && P' <= P
    {
      TailExact(line[P'..], tl');
      assert ts[P'] == ParseTail(line[P'..]);
      LeadEndsExact(line, s', L');
      assert Fits(line, L', P);
    }
    assert Preferred(line, s, L, P, tl);
  }

  /** A line that fits the grammar in any way is recognized. */
  lemma RecognizeComplete(line: string)
    requires Matches(line)
    ensures Recognize(line).Some?
  {
    var s: nat, L: nat, P: nat, tl: Tail :| Candidate(line, s, L, P, tl);
    TailExact(line[P..], tl);
    LeadEndsExact(line, s, L);
    RecognizeFrom(line, s, L, P);
  }

  /** A prefix end at `s` that fits before some tail start `P`. */
  lemma RecognizeFrom(line: string, s: nat, L: nat, P: nat)
    requires s <= L < P <= |line| && IsSpace(line[L])
    requires L in LeadEnds(line, s) && ParseTail(line[P..]).Some?
    ensures Recognize(line).Some?
  {
    var ts := Tails(line);
    assert ts[P] == ParseTail(line[P..]);
    var T := LastTail(line).value.0;
    assert Fits(line, L, T);
  }

  /** `parse_line`: the device the line describes, or `ValueError`. */
  function ParseLine(line: string): (r: Result<Device, ParseError>)
    ensures r.Ok? ==> r.value.enabled && r.value.children == []
    ensures r.Ok? ==> r.value.name == [] || (!IsSpace(r.value.name[0]) && !IsSpace(r.value.name[|r.value.name| - 1]))
    ensures r.Err? ==> r.error == NoMatch(line)
  {
    match Recognize(line)
    case None => Err(NoMatch(line))
    case Some(d) => Ok(d)
  }

  /** `parse_line` succeeds exactly on the lines that fit the grammar, and
      then returns the device of the match `re.search` picks: its id, its
      name stripped of surrounding blanks, and parent, level and type as
      the bracket form decides. */
  lemma ParseLineMatches(line: string)
    ensures ParseLine(line).Ok? <==> Matches(line)
    ensures ParseLine(line).Ok? ==>
      exists s: nat, L: nat, P: nat, tl: Tail ::
        Preferred(line, s, L, P, tl) && ParseLine(line).value == MakeDevice(Strip(line[L..P]), tl)
  {
    if Matches(line) {
      RecognizeComplete(line);
    }
    if Recognize(line).Some? {
      RecognizeSound(line);
    }
  }
}

=== FILE: listing_parser.dfy ===
/** `parse` of `inputdeviceindicator/command.py`: the whole output of
    `xinput list --long` read line by line into a forest of devices.

    The loop is modelled in two steps. `Classify` says what one line is
    (a line to skip, possibly carrying the disabled marker; a device
    line; or a line the grammar rejects), and `Run` folds the loop body
    over those kinds, updating the object graph of the `Arenas` module.
    A second, declarative description of the outcome (`Valid`,
    `RefArena`) says which listings succeed and what they produce
    without following the loop, and `RunMatchesReference` proves the two
    agree. */
module ListingParser {
  import opened Maybe
  import opened Chars
  import opened Text
  import opened Devices
  import opened LineGrammar
  import opened Arenas

  /** The text whose presence in a skipped line disables the device
      read last. */
  const DisabledMarker: string := "This device is disabled"

  /** `SUBORDINATE_LINE_REGEX.match(line)`, that is `^\s+[^\s↳]`: the
      line opens with blanks followed by a character that is neither a
      blank nor the connector. */
  predicate IsSubordinate(line: string) {
    var k := Span(line, Space);
    1 <= k < |line| && line[k] != Arrow
  }

  /** `IsSubordinate` accepts exactly the lines the expression matches. */
  lemma SubordinateExact(line: string)
    ensures IsSubordinate(line) <==>
      exists w: string, c: char, rest: string ::
        IsRun(w, Space) && !IsSpace(c) && c != Arrow && line == w + ([c] + rest)
  {
    var k := Span(line, Space);
    if IsSubordinate(line) {
      var w, c, rest := line[..k], line[k], line[k + 1..];
      assert line == w + ([c] + rest);
      assert IsRun(w, Space) && !IsSpace(c) && c != Arrow;
    }
    if exists w: string, c: char, rest: string ::
        IsRun(w, Space) && !IsSpace(c) && c != Arrow && line == w + ([c] + rest) {
      var w: string, c: char, rest: string :|
        IsRun(w, Space) && !IsSpace(c) && c != Arrow && line == w + ([c] + rest);
      assert ([c] + rest)[0] == c;
      SpanOfRun(w, [c] + rest, Space);
      assert line[|w|] == c;
    }
  }

  // ---------------------------------------------------------------------
  // Lines

  /** What one line of the listing means to the loop. */
  datatype LineKind =
    | Skip(disables: bool)
    | DeviceLine(device: Device)
    | Malformed(line: string)

  /** The test at the top of the loop, then `parse_line`: an empty or
      subordinate line is skipped (and disables the last device when it
      contains the marker anywhere); every other line must be a device
      line. */
  function Classify(line: string): (k: LineKind)
    ensures k.Skip? <==> line == [] || IsSubordinate(line)
    ensures k.Skip? ==> (k.disables <==> exists i :: OccursAt(line, DisabledMarker, i))
    ensures k.DeviceLine? ==> ParseLine(line) == Ok(k.device)
    ensures k.Malformed? ==> k.line == line && ParseLine(line).Err?
  {
    if line == [] || IsSubordinate(line) then Skip(Contains(line, DisabledMarker))
    else
      match ParseLine(line)
      case Ok(d) => DeviceLine(d)
      case Err(_) => Malformed(line)
  }

  /** The kind of every line of `text`, cut at newlines. */
  function Kinds(text: string): (ks: seq<LineKind>)
    ensures |ks| == |Split(text)|
    ensures forall i :: 0 <= i < |ks| ==> ks[i] == Classify(Split(text)[i])
  {
    var lines := Split(text);
    seq(|lines|, i requires 0 <= i < |lines| => Classify(lines[i]))
  }

  // ---------------------------------------------------------------------
  // The loop

  /** One pass of the loop body over the state so far. */
  function Step(a: Arena, k: LineKind): (r: Result<Arena, ParseError>)
    requires WellFormed(a)
    ensures r.Ok? ==> WellFormed(r.value)
    ensures r.Ok? && EachOnce(a) ==> EachOnce(r.value)
    ensures r.Ok? ==> |r.value.nodes| == |a.nodes| + (if k.DeviceLine? then 1 else 0)
  {
    match k
    case Skip(disables) =>
      if !disables then Ok(a)
      else if |a.nodes| == 0 then Err(MarkerBeforeDevice)
      else
        DisableOnceIf(a, |a.nodes| - 1);
        Ok(Disable(a, |a.nodes| - 1))
    case DeviceLine(d) =>
      AddDeviceOnceIf(a, d);
      AddDevice(a, d)
    case Malformed(line) => Err(NoMatch(line))
  }

  lemma DisableOnceIf(a: Arena, j: nat)
    requires WellFormed(a) && j < |a.nodes|
    ensures WellFormed(Disable(a, j))
    ensures EachOnce(a) ==> EachOnce(Disable(a, j))
  {
    if EachOnce(a) {
      DisableOnce(a, j);
    }
  }

  lemma AddDeviceOnceIf(a: Arena, d: Device)
    requires WellFormed(a)
    ensures AddDevice(a, d).Ok? && EachOnce(a) ==> EachOnce(AddDevice(a, d).value)
  {
    if AddDevice(a, d).Ok? && EachOnce(a) {
      AddDeviceOnce(a, d);
    }
  }

  /** The loop over the first `|kinds|` lines; the first failing line
      ends it. */
  function Run(kinds: seq<LineKind>): (r: Result<Arena, ParseError>)
    ensures r.Ok? ==> WellFormed(r.value) && EachOnce(r.value)
    ensures r.Ok? ==> |r.value.nodes| == |Devs(kinds)|
  {
    if kinds == [] then
      EmptyOnce();
      Ok(Empty)
    else
      var a :- Run(kinds[..|kinds| - 1]);
      Step(a, kinds[|kinds| - 1])
  }

  /** `parse`: the top-level devices, each with its children. */
  function Parse(text: string): (r: Result<seq<Device>, ParseError>)
    ensures r.Ok? ==> CountAll(r.value) == |Devs(Kinds(text))|
  {
    var a :- Run(Kinds(text));
    ForestCount(a);
    Ok(Forest(a))
  }

  // ---------------------------------------------------------------------
  // The outcome, stated without the loop

  /** The devices of the device lines, in order. */
  function Devs(kinds: seq<LineKind>): (ds: seq<Device>)
    ensures |ds| <= |kinds|
  {
    if kinds == [] then []
    else
      var k := kinds[|kinds| - 1];
      Devs(kinds[..|kinds| - 1]) + (if k.DeviceLine? then [k.device] else [])
  }

  /** Some device among `ds` carries `id`. */
  predicate HasId(ds: seq<Device>, id: nat) {
    exists j :: 0 <= j < |ds| && ds[j].id == id
  }

  /** Why line kind `k` fails after the device lines `ds`: a rejected
      line, a marker before any device, or a non-floating slave whose
      parent id none of `ds` carries. */
  function LineError(ds: seq<Device>, k: LineKind): Option<ParseError> {
    match k
    case Skip(disables) => if disables && ds == [] then Some(MarkerBeforeDevice) else None
    case DeviceLine(d) =>
      if IsNestedSlave(d) && !(d.parentId.Some? && HasId(ds, d.parentId.value)) then Some(MissingParent(d.parentId))
      else None
    case Malformed(line) => Some(NoMatch(line))
  }

  /** No line fails given the device lines before it. */
  predicate Valid(kinds: seq<LineKind>) {
    forall i :: 0 <= i < |kinds| ==> LineError(Devs(kinds[..i]), kinds[i]).None?
  }

  /** The `j`-th device is disabled: some marker line has it as the last
      device line above. */
  predicate Disabled(kinds: seq<LineKind>, j: nat) {
    exists i :: 0 <= i < |kinds| && kinds[i] == Skip(true) && |Devs(kinds[..i])| == j + 1
  }

  function Mark(d: Device, off: bool): (r: Device)
    ensures r.enabled == (d.enabled && !off) && r.(enabled := d.enabled) == d
  {
    if off then d.(enabled := false) else d
  }

  /** `device_map` after the devices `ds`: each id to the last position
      that carries it. */
  function RefIndex(ds: seq<Device>): (m: map<nat, nat>)
    ensures forall id :: id in m ==> m[id] < |ds| && ds[m[id]].id == id
    ensures forall id, j :: id in m && m[id] < j < |ds| ==> ds[j].id != id
    ensures forall j :: 0 <= j < |ds| ==> ds[j].id in m
  {
    if ds == [] then map[]
    else
      var n := |ds| - 1;
      var m := RefIndex(ds[..n]);
      assert forall j :: 0 <= j < n ==> ds[..n][j] == ds[j];
      m[ds[n].id := n]
  }

  /** The position of the parent a non-floating slave at `j` is attached
      to: the last earlier device with its parent id. */
  function ParentIndex(ds: seq<Device>, j: nat): (r: Option<nat>)
    requires j < |ds|
    ensures r.Some? ==> r.value < j && Some(ds[r.value].id) == ds[j].parentId
  {
    var d := ds[j];
    var m := RefIndex(ds[..j]);
    if IsNestedSlave(d) && d.parentId.Some? && d.parentId.value in m then Some(m[d.parentId.value])
    else None
  }

  /** Positions of the devices that go to the top level, in order. */
  function RootIndices(ds: seq<Device>): (rs: seq<nat>)
    ensures forall i, j :: 0 <= i < j < |rs| ==> rs[i] < rs[j]
    ensures forall i :: 0 <= i < |rs| ==> rs[i] < |ds| && !IsNestedSlave(ds[rs[i]])
    ensures forall j :: 0 <= j < |ds| && !IsNestedSlave(ds[j]) ==> j in rs
  {
    if ds == [] then []
    else
      var n := |ds| - 1;
      var rs := RootIndices(ds[..n]);
      rs + (if IsNestedSlave(ds[n]) then [] else [n])
  }

  /** The parent position of every device, `None` for a top-level one. */
  function Parents(ds: seq<Device>): (ps: seq<Option<nat>>)
    ensures |ps| == |ds| && forall j :: 0 <= j < |ds| ==> ps[j] == ParentIndex(ds, j)
  {
    seq(|ds|, j requires 0 <= j < |ds| => ParentIndex(ds, j))
  }

  /** The positions holding `Some(p)`, in order. */
  function Where(ps: seq<Option<nat>>, p: nat): (ks: seq<nat>)
    ensures forall i, j :: 0 <= i < j < |ks| ==> ks[i] < ks[j]
    ensures forall i :: 0 <= i < |ks| ==> ks[i] < |ps| && ps[ks[i]] == Some(p)
    ensures forall j :: 0 <= j < |ps| && ps[j] == Some(p) ==> j in ks
  {
    if ps == [] then []
    else
      var n := |ps| - 1;
      Where(ps[..n], p) + (if ps[n] == Some(p) then [n] else [])
  }

  /** Positions of the devices attached under position `p`, in order. */
  function KidIndices(ds: seq<Device>, p: nat): (ks: seq<nat>)
    ensures forall i, j :: 0 <= i < j < |ks| ==> ks[i] < ks[j]
    ensures forall i :: 0 <= i < |ks| ==> p < ks[i] < |ds| && ParentIndex(ds, ks[i]) == Some(p)
    ensures forall j :: 0 <= j < |ds| && ParentIndex(ds, j) == Some(p) ==> j in ks
  {
    Where(Parents(ds), p)
  }

  /** A device's parent does not depend on the devices after it. */
  lemma ParentPrefix(ds: seq<Device>, n: nat)
    requires n <= |ds|
    ensures forall j :: 0 <= j < n ==> ParentIndex(ds[..n], j) == ParentIndex(ds, j)
  {
    forall j | 0 <= j < n
      ensures ParentIndex(ds[..n], j) == ParentIndex(ds, j)
    {
      assert ds[..n][..j] == ds[..j];
    }
  }

  /** The object graph the loop leaves behind, described position by
      position. */
  function RefArena(kinds: seq<LineKind>): (a: Arena)
    ensures |a.nodes| == |Devs(kinds)|
  {
    Outcome(Devs(kinds), Marks(kinds))
  }

  /** Which devices a marker disabled, position by position. */
  function Marks(kinds: seq<LineKind>): (m: seq<bool>)
    ensures |m| == |Devs(kinds)| && forall j :: 0 <= j < |m| ==> m[j] == Disabled(kinds, j)
  {
    seq(|Devs(kinds)|, j requires 0 <= j < |Devs(kinds)| => Disabled(kinds, j))
  }

  /** The object graph of the devices `ds` with the marks `m`. */
  function Outcome(ds: seq<Device>, m: seq<bool>): (a: Arena)
    requires |m| == |ds|
    ensures |a.nodes| == |ds|
  {
    Arena(
      seq(|ds|, j requires 0 <= j < |ds| => Node(Mark(ds[j], m[j]), KidIndices(ds, j))),
      RefIndex(ds),
      RootIndices(ds))
  }

  // ---------------------------------------------------------------------
  // The loop computes the declared outcome

  lemma SnocPrefix(pre: seq<LineKind>, k: LineKind, i: nat)
    requires i <= |pre|
    ensures (pre + [k])[..i] == pre[..i] && (pre + [k])[..|pre|] == pre
  {
  }

  lemma DevsSnoc(pre: seq<LineKind>, k: LineKind)
    ensures Devs(pre + [k]) == Devs(pre) + (if k.DeviceLine? then [k.device] else [])
  {
    SnocPrefix(pre, k, 0);
  }

  /** A prefix holds no more device lines than the whole. */
  lemma {:induction false} DevsMono(kinds: seq<LineKind>, i: nat)
    requires i <= |kinds|
    ensures |Devs(kinds[..i])| <= |Devs(kinds)|
    decreases |kinds|
  {
    if i < |kinds| {
      var pre := kinds[..|kinds| - 1];
      assert kinds == pre + [kinds[|kinds| - 1]];
      SnocPrefix(pre, kinds[|kinds| - 1], i);
      DevsMono(pre, i);
      DevsSnoc(pre, kinds[|kinds| - 1]);
    } else {
      assert kinds[..i] == kinds;
    }
  }

  /** A marker always disables a device already read. */
  lemma DisabledBound(kinds: seq<LineKind>, j: nat)
    requires Disabled(kinds, j)
    ensures j < |Devs(kinds)|
  {
    var i :| 0 <= i < |kinds| && kinds[i] == Skip(true) && |Devs(kinds[..i])| == j + 1;
    DevsMono(kinds, i);
  }

  lemma DisabledSnoc(pre: seq<LineKind>, k: LineKind, j: nat)
    ensures Disabled(pre + [k], j) <==> Disabled(pre, j) || (k == Skip(true) && j + 1 == |Devs(pre)|)
  {
    var kinds := pre + [k];
    SnocPrefix(pre, k, 0);
    if Disabled(kinds, j) {
      var i :| 0 <= i < |kinds| && kinds[i] == Skip(true) && |Devs(kinds[..i])| == j + 1;
      SnocPrefix(pre, k, if i <= |pre| then i else 0);
      if i < |pre| {
        assert pre[i] == kinds[i];
      }
    }
    if Disabled(pre, j) {
      var i :| 0 <= i < |pre| && pre[i] == Skip(true) && |Devs(pre[..i])| == j + 1;
      SnocPrefix(pre, k, i);
      assert kinds[i] == pre[i];
    }
    if k == Skip(true) && j + 1 == |Devs(pre)| {
      assert kinds[|pre|] == k;
    }
  }

  lemma ValidSnoc(pre: seq<LineKind>, k: LineKind)
    ensures Valid(pre + [k]) <==> Valid(pre) && LineError(Devs(pre), k).None?
  {
    var kinds := pre + [k];
    SnocPrefix(pre, k, 0);
    if Valid(kinds) {
      forall i | 0 <= i < |pre|
        ensures LineError(Devs(pre[..i]), pre[i]).None?
      {
        SnocPrefix(pre, k, i);
        assert kinds[i] == pre[i];
      }
      assert kinds[|pre|] == k;
    }
    if Valid(pre) && LineError(Devs(pre), k).None? {
      forall i | 0 <= i < |kinds|
        ensures LineError(Devs(kinds[..i]), kinds[i]).None?
      {
        if i < |pre| {
          SnocPrefix(pre, k, i);
          assert kinds[i] == pre[i];
        }
      }
    }
  }

  /** `device_map` holds an id exactly when some device read so far
      carries it. */
  lemma IndexHasId(ds: seq<Device>, id: nat)
    ensures id in RefIndex(ds) <==> HasId(ds, id)
  {
    if id in RefIndex(ds) {
      assert ds[RefIndex(ds)[id]].id == id;
    }
  }

  lemma RefIndexSnoc(ds: seq<Device>, d: Device)
    ensures RefIndex(ds + [d]) == RefIndex(ds)[d.id := |ds|]
  {
    assert (ds + [d])[..|ds|] == ds;
  }

  /** The kids of an existing position gain the new device exactly when
      it is attached there. */
  lemma KidsSnoc(ds: seq<Device>, d: Device, p: nat)
    ensures KidIndices(ds + [d], p) ==
      KidIndices(ds, p) + (if ParentIndex(ds + [d], |ds|) == Some(p) then [|ds|] else [])
  {
    var ds' := ds + [d];
    ParentPrefix(ds', |ds|);
    assert ds'[..|ds|] == ds;
    assert Parents(ds') == Parents(ds) + [ParentIndex(ds', |ds|)];
    assert (Parents(ds) + [ParentIndex(ds', |ds|)])[..|ds|] == Parents(ds);
  }

  lemma RootsSnoc(ds: seq<Device>, d: Device)
    ensures RootIndices(ds + [d]) == RootIndices(ds) + (if IsNestedSlave(d) then [] else [|ds|])
  {
    assert (ds + [d])[..|ds|] == ds;
  }

  lemma ParentOfLast(ds: seq<Device>, d: Device)
    ensures ParentIndex(ds + [d], |ds|) ==
      if IsNestedSlave(d) && d.parentId.Some? && d.parentId.value in RefIndex(ds)
      then Some(RefIndex(ds)[d.parentId.value]) else None
  {
    assert (ds + [d])[..|ds|] == ds;
  }

  /** The declared outcome is a well-formed object graph. */
  lemma OutcomeWellFormed(ds: seq<Device>, m: seq<bool>)
    requires |m| == |ds|
    ensures WellFormed(Outcome(ds, m))
  {
  }

  lemma RefWellFormed(kinds: seq<LineKind>)
    ensures WellFormed(RefArena(kinds))
  {
    OutcomeWellFormed(Devs(kinds), Marks(kinds));
  }

  /** A line that adds no device leaves the devices alone and adds a mark
      to the last one when it is a marker line. */
  lemma MarksSnoc(pre: seq<LineKind>, k: LineKind)
    requires !k.DeviceLine?
    ensures Devs(pre + [k]) == Devs(pre)
    ensures Marks(pre + [k]) ==
      if k == Skip(true) && Devs(pre) != [] then Marks(pre)[|Devs(pre)| - 1 := true] else Marks(pre)
  {
    DevsSnoc(pre, k);
    var m, m' := Marks(pre), Marks(pre + [k]);
    forall j | 0 <= j < |m|
      ensures m'[j] == if k == Skip(true) && j + 1 == |Devs(pre)| then true else m[j]
    {
      DisabledSnoc(pre, k, j);
    }
  }

  lemma MarksDevice(pre: seq<LineKind>, d: Device)
    ensures Devs(pre + [DeviceLine(d)]) == Devs(pre) + [d]
    ensures Marks(pre + [DeviceLine(d)]) == Marks(pre) + [false]
  {
    var k := DeviceLine(d);
    DevsSnoc(pre, k);
    var m, m' := Marks(pre), Marks(pre + [k]);
    forall j | 0 <= j < |m'|
      ensures m'[j] == (m + [false])[j]
    {
      DisabledSnoc(pre, k, j);
      if Disabled(pre, j) {
        DisabledBound(pre, j);
      }
    }
  }

  /** Marking the last device is `Disable` on its object. */
  lemma OutcomeMarker(ds: seq<Device>, m: seq<bool>)
    requires |m| == |ds| && ds != []
    ensures WellFormed(Outcome(ds, m))
    ensures Outcome(ds, m[|ds| - 1 := true]) == Disable(Outcome(ds, m), |ds| - 1)
  {
    OutcomeWellFormed(ds, m);
    var b, c := Outcome(ds, m[|ds| - 1 := true]), Disable(Outcome(ds, m), |ds| - 1);
    assert b.nodes == c.nodes;
  }

  /** A device whose parent, if it needs one, has been read extends the
      outcome as `AddDevice` does; one whose parent has not fails as
      `LineError` says. */
  lemma OutcomeDevice(ds: seq<Device>, m: seq<bool>, d: Device)
    requires |m| == |ds|
    ensures WellFormed(Outcome(ds, m))
    ensures AddDevice(Outcome(ds, m), d).Err? <==> LineError(ds, DeviceLine(d)).Some?
    ensures AddDevice(Outcome(ds, m), d).Err? ==> AddDevice(Outcome(ds, m), d).error == LineError(ds, DeviceLine(d)).value
    ensures AddDevice(Outcome(ds, m), d).Ok? ==> AddDevice(Outcome(ds, m), d).value == Outcome(ds + [d], m + [false])
  {
    OutcomeWellFormed(ds, m);
    if d.parentId.Some? {
      IndexHasId(ds, d.parentId.value);
    }
    if AddDevice(Outcome(ds, m), d).Ok? {
      OutcomeGrows(ds, m, d);
    }
  }

  lemma OutcomeGrows(ds: seq<Device>, m: seq<bool>, d: Device)
    requires |m| == |ds|
    requires WellFormed(Outcome(ds, m)) && AddDevice(Outcome(ds, m), d).Ok?
    ensures AddDevice(Outcome(ds, m), d).value == Outcome(ds + [d], m + [false])
  {
    var a := Outcome(ds, m);
    var r := AddDevice(a, d).value;
    var b := Outcome(ds + [d], m + [false]);
    OutcomeNodes(ds, m, d);
    AddDeviceShape(a, d);
    RootsSnoc(ds, d);
    RefIndexSnoc(ds, d);
    assert r.roots == b.roots;
    assert r.index == b.index;
  }

  lemma OutcomeNodes(ds: seq<Device>, m: seq<bool>, d: Device)
    requires |m| == |ds|
    requires WellFormed(Outcome(ds, m)) && AddDevice(Outcome(ds, m), d).Ok?
    ensures AddDevice(Outcome(ds, m), d).value.nodes == Outcome(ds + [d], m + [false]).nodes
  {
    var a := Outcome(ds, m);
    var r := AddDevice(a, d).value;
    var b := Outcome(ds + [d], m + [false]);
    OutcomeKidsAll(ds, m, d);
    OutcomeLast(ds, m, d);
    SameNodes(b.nodes, r.nodes, |ds|);
  }

  lemma SameNodes(bn: seq<Node>, rn: seq<Node>, n: nat)
    requires |bn| == |rn| == n + 1 && bn[n] == rn[n]
    requires forall j :: 0 <= j < n ==> bn[j] == rn[j]
    ensures bn == rn
  {
  }

  lemma OutcomeKidsAll(ds: seq<Device>, m: seq<bool>, d: Device)
    requires |m| == |ds|
    requires WellFormed(Outcome(ds, m)) && AddDevice(Outcome(ds, m), d).Ok?
    ensures forall j :: 0 <= j < |ds| ==>
      Outcome(ds + [d], m + [false]).nodes[j] == AddDevice(Outcome(ds, m), d).value.nodes[j]
  {
    forall j | 0 <= j < |ds|
      ensures Outcome(ds + [d], m + [false]).nodes[j] == AddDevice(Outcome(ds, m), d).value.nodes[j]
    {
      OutcomeKids(ds, m, d, j);
    }
  }

  /** The new device's object is childless and carries no mark. */
  lemma OutcomeLast(ds: seq<Device>, m: seq<bool>, d: Device)
    requires |m| == |ds|
    ensures Outcome(ds + [d], m + [false]).nodes[|ds|] == Node(d, [])
  {
    var ps := Parents(ds + [d]);
    assert forall j :: 0 <= j < |ps| ==> ps[j] != Some(|ds|);
    WhereNone(ps, |ds|);
  }

  /** Nothing is attached to a position no entry names. */
  lemma WhereNone(ps: seq<Option<nat>>, p: nat)
    requires forall j :: 0 <= j < |ps| ==> ps[j] != Some(p)
    ensures Where(ps, p) == []
  {
  }

  lemma OutcomeKids(ds: seq<Device>, m: seq<bool>, d: Device, j: nat)
    requires |m| == |ds| && j < |ds|
    requires WellFormed(Outcome(ds, m)) && AddDevice(Outcome(ds, m), d).Ok?
    ensures Outcome(ds + [d], m + [false]).nodes[j] == AddDevice(Outcome(ds, m), d).value.nodes[j]
  {
    var a := Outcome(ds, m);
    AddDeviceShape(a, d);
    KidsSnoc(ds, d, j);
    ParentOfLast(ds, d);
    assert (ds + [d])[j] == ds[j] && (m + [false])[j] == m[j];
    assert a.nodes[j] == Node(Mark(ds[j], m[j]), KidIndices(ds, j));
    assert a.index == RefIndex(ds);
  }

  /** One step of the loop from the declared outcome of the lines so far
      fails with the line's error, or reaches the declared outcome of one
      more line. */
  lemma StepMatches(pre: seq<LineKind>, k: LineKind)
    ensures WellFormed(RefArena(pre))
    ensures Step(RefArena(pre), k) ==
      if LineError(Devs(pre), k).Some? then Err(LineError(Devs(pre), k).value) else Ok(RefArena(pre + [k]))
  {
    RefWellFormed(pre);
    match k
    case Skip(disables) =>
      MarksSnoc(pre, k);
      if disables && Devs(pre) != [] {
        OutcomeMarker(Devs(pre), Marks(pre));
      }
    case DeviceLine(d) =>
      MarksDevice(pre, d);
      OutcomeDevice(Devs(pre), Marks(pre), d);
    case Malformed(_) =>
  }

  /** The loop succeeds exactly on the valid listings and then leaves the
      declared object graph behind; when it fails, it fails with the
      error of the first line that cannot be read, every line before it
      being valid. */
  lemma {:induction false} RunMatchesReference(kinds: seq<LineKind>)
    ensures Run(kinds).Ok? <==> Valid(kinds)
    ensures Run(kinds).Ok? ==> Run(kinds).value == RefArena(kinds)
    ensures Run(kinds).Err? ==>
      exists i :: 0 <= i < |kinds| && Valid(kinds[..i]) && LineError(Devs(kinds[..i]), kinds[i]) == Some(Run(kinds).error)
    decreases |kinds|
  {
    if kinds == [] {
      assert RefArena(kinds).nodes == [];
    } else {
      var pre, k := kinds[..|kinds| - 1], kinds[|kinds| - 1];
      assert kinds == pre + [k];
      RunMatchesReference(pre);
      ValidSnoc(pre, k);
      if Run(pre).Err? {
        RunAfterError(pre, k);
      } else {
        RunAfterValid(pre, k);
        SnocPrefix(pre, k, 0);
        assert kinds[|pre|] == k;
      }
    }
  }

  /** Once the loop has failed, one more line keeps the first error. */
  lemma RunAfterError(pre: seq<LineKind>, k: LineKind)
    requires Run(pre).Err?
    requires exists i :: 0 <= i < |pre| && Valid(pre[..i]) && LineError(Devs(pre[..i]), pre[i]) == Some(Run(pre).error)
    ensures Run(pre + [k]) == Err(Run(pre).error)
    ensures exists i :: (0 <= i < |pre| && Valid((pre + [k])[..i]) &&
      LineError(Devs((pre + [k])[..i]), (pre + [k])[i]) == Some(Run(pre).error))
  {
    RunSnoc(pre, k);
    var i :| 0 <= i < |pre| && Valid(pre[..i]) && LineError(Devs(pre[..i]), pre[i]) == Some(Run(pre).error);
    SnocPrefix(pre, k, i);
    assert (pre + [k])[i] == pre[i];
  }

  /** After valid lines the loop holds the declared outcome, and one more
      line either fails with its own error or extends that outcome. */
  lemma RunAfterValid(pre: seq<LineKind>, k: LineKind)
    requires Run(pre) == Ok(RefArena(pre))
    ensures Run(pre + [k]).Ok? <==> LineError(Devs(pre), k).None?
    ensures Run(pre + [k]).Ok? ==> Run(pre + [k]).value == RefArena(pre + [k])
    ensures Run(pre + [k]).Err? ==> Some(Run(pre + [k]).error) == LineError(Devs(pre), k)
  {
    RunSnoc(pre, k);
    StepMatches(pre, k);
  }

  // ---------------------------------------------------------------------
  // What `parse` returns

  /** Device lines as `parse_line` returns them: enabled, no children. */
  predicate Fresh(kinds: seq<LineKind>) {
    forall i :: 0 <= i < |kinds| && kinds[i].DeviceLine? ==> kinds[i].device.enabled && kinds[i].device.children == []
  }

  lemma {:induction false} DevsFresh(kinds: seq<LineKind>)
    requires Fresh(kinds)
    ensures forall j :: 0 <= j < |Devs(kinds)| ==> Devs(kinds)[j].enabled
    decreases |kinds|
  {
    if kinds != [] {
      var pre := kinds[..|kinds| - 1];
      assert Fresh(pre) by {
        forall i | 0 <= i < |pre| && pre[i].DeviceLine?
          ensures pre[i].device.enabled
        {
          assert pre[i] == kinds[i];
        }
      }
      DevsFresh(pre);
    }
  }

  lemma KindsFresh(text: string)
    ensures Fresh(Kinds(text))
  {
  }

  /** In the declared graph, the `j`-th device is disabled exactly when
      a marker line follows it before the next device line. */
  lemma RefDisabledExact(kinds: seq<LineKind>, j: nat)
    requires Fresh(kinds) && j < |Devs(kinds)|
    ensures RefArena(kinds).nodes[j].device.enabled <==> !Disabled(kinds, j)
  {
    DevsFresh(kinds);
  }

  /** On a valid listing the loop leaves the device of the `j`-th device
      line disabled exactly when a marker line follows it before the next
      device line. */
  lemma DisabledExact(kinds: seq<LineKind>, j: nat)
    requires Fresh(kinds) && Valid(kinds) && j < |Devs(kinds)|
    ensures Run(kinds).Ok? && j < |Run(kinds).value.nodes|
    ensures Run(kinds).value.nodes[j].device.enabled <==> !Disabled(kinds, j)
  {
    RunMatchesReference(kinds);
    RefDisabledExact(kinds, j);
  }

  /** With no marker line, every device of the forest stays enabled. */
  lemma NoMarkerAllEnabled(kinds: seq<LineKind>)
    requires Fresh(kinds) && Run(kinds).Ok?
    requires forall i :: 0 <= i < |kinds| ==> kinds[i] != Skip(true)
    ensures AllEnabledIn(Forest(Run(kinds).value))
  {
    RunMatchesReference(kinds);
    var a := Run(kinds).value;
    forall j | 0 <= j < |a.nodes|
      ensures a.nodes[j].device.enabled
    {
      RefDisabledExact(kinds, j);
    }
    BuildAllEnabled(a, a.roots, 0);
  }

  /** `parse` succeeds exactly on the valid listings, returns the forest
      of the declared object graph, and otherwise fails with the error of
      the first line that cannot be read. */
  lemma ParseMatchesReference(text: string)
    ensures Parse(text).Ok? <==> Valid(Kinds(text))
    ensures Parse(text).Ok? ==> WellFormed(RefArena(Kinds(text))) && Parse(text).value == Forest(RefArena(Kinds(text)))
    ensures Parse(text).Err? ==>
      exists i :: 0 <= i < |Split(text)| && Valid(Kinds(text)[..i]) &&
        LineError(Devs(Kinds(text)[..i]), Classify(Split(text)[i])) == Some(Parse(text).error)
  {
    RunMatchesReference(Kinds(text));
    RefWellFormed(Kinds(text));
  }

  /** A skipped line without the marker changes nothing, wherever it is. */
  lemma {:induction false} RunSkip(a: seq<LineKind>, b: seq<LineKind>)
    ensures Run(a + [Skip(false)] + b) == Run(a + b)
    decreases |b|
  {
    if b == [] {
      assert a + [Skip(false)] + b == a + [Skip(false)];
      assert a + b == a;
      RunSnoc(a, Skip(false));
    } else {
      var b', x := b[..|b| - 1], b[|b| - 1];
      assert b == b' + [x];
      RunSkip(a, b');
      var u, v := a + [Skip(false)] + b', a + b';
      assert a + [Skip(false)] + b == u + [x];
      assert a + b == v + [x];
      RunSame(u, v, x);
    }
  }

  /** Two line sequences the loop treats alike stay alike after one more
      line. */
  lemma RunSame(u: seq<LineKind>, v: seq<LineKind>, x: LineKind)
    requires Run(u) == Run(v)
    ensures Run(u + [x]) == Run(v + [x])
  {
    RunSnoc(u, x);
    RunSnoc(v, x);
  }

  /** The kind of each of `lines`. */
  function ClassifyAll(lines: seq<string>): (ks: seq<LineKind>)
    ensures |ks| == |lines| && forall i :: 0 <= i < |lines| ==> ks[i] == Classify(lines[i])
  {
    seq(|lines|, i requires 0 <= i < |lines| => Classify(lines[i]))
  }

  lemma ClassifyAllConcat(x: seq<string>, y: seq<string>)
    ensures ClassifyAll(x + y) == ClassifyAll(x) + ClassifyAll(y)
  {
    var l, r := ClassifyAll(x + y), ClassifyAll(x) + ClassifyAll(y);
    forall i | 0 <= i < |l|
      ensures l[i] == r[i]
    {
      if i < |x| {
        assert (x + y)[i] == x[i];
      } else {
        assert (x + y)[i] == y[i - |x|];
      }
    }
  }

  /** The kinds of the lines of a joined text are the kinds of the lines. */
  lemma KindsJoin(lines: seq<string>)
    requires |lines| >= 1 && forall i :: 0 <= i < |lines| ==> NoNewline(lines[i])
    ensures Kinds(Join(lines)) == ClassifyAll(lines)
  {
    SplitJoin(lines);
  }

  lemma NoNewlineConcat(x: seq<string>, y: seq<string>)
    requires forall i :: 0 <= i < |x| ==> NoNewline(x[i])
    requires forall i :: 0 <= i < |y| ==> NoNewline(y[i])
    ensures forall i :: 0 <= i < |x + y| ==> NoNewline((x + y)[i])
  {
    forall i | 0 <= i < |x + y|
      ensures NoNewline((x + y)[i])
    {
      if i < |x| {
        assert (x + y)[i] == x[i];
      } else {
        assert (x + y)[i] == y[i - |x|];
      }
    }
  }

  /** Detail lines (`Reporting 1 classes:`, `Class originated from: ...`)
      and empty lines never change what `parse` returns, as long as they
      do not carry the disabled marker. */
  lemma ParseIgnoresDetail(pre: seq<string>, line: string, post: seq<string>)
    requires |pre| + |post| >= 1
    requires forall i :: 0 <= i < |pre| ==> NoNewline(pre[i])
    requires forall i :: 0 <= i < |post| ==> NoNewline(post[i])
    requires NoNewline(line) && (line == [] || IsSubordinate(line))
    requires forall i :: !OccursAt(line, DisabledMarker, i)
    ensures Parse(Join(pre + [line] + post)) == Parse(Join(pre + post))
  {
    NoNewlineConcat(pre, [line]);
    NoNewlineConcat(pre + [line], post);
    NoNewlineConcat(pre, post);
    KindsJoin(pre + [line] + post);
    KindsJoin(pre + post);
    SkippedLine(line);
    KindsInsert(pre, line, post);
    RunSkip(ClassifyAll(pre), ClassifyAll(post));
    SameRunSameParse(Join(pre + [line] + post), Join(pre + post));
  }

  lemma SkippedLine(line: string)
    requires line == [] || IsSubordinate(line)
    requires forall i :: !OccursAt(line, DisabledMarker, i)
    ensures Classify(line) == Skip(false)
  {
  }

  lemma KindsInsert(pre: seq<string>, line: string, post: seq<string>)
    requires Classify(line) == Skip(false)
    ensures ClassifyAll(pre + [line] + post) == ClassifyAll(pre) + [Skip(false)] + ClassifyAll(post)
    ensures ClassifyAll(pre + post) == ClassifyAll(pre) + ClassifyAll(post)
  {
    ClassifyAllConcat(pre + [line], post);
    ClassifyAllConcat(pre, [line]);
    ClassifyAllConcat(pre, post);
    assert ClassifyAll([line]) == [Skip(false)];
  }

  lemma SameRunSameParse(t1: string, t2: string)
    requires Run(Kinds(t1)) == Run(Kinds(t2))
    ensures Parse(t1) == Parse(t2)
  {
  }

  /** The loop runs one more line after the lines before it. */
  lemma RunSnoc(pre: seq<LineKind>, k: LineKind)
    ensures Run(pre + [k]) == if Run(pre).Err? then Err(Run(pre).error) else Step(Run(pre).value, k)
  {
    assert (pre + [k])[..|pre|] == pre;
  }

  // The example listing of `parse`, one kind per line: two masters with
  // one slave each, then a floating slave.

  const ExA := NewDevice(2, "A", Some(3), Master, "pointer")
  const ExA1 := NewDevice(4, "A1", Some(2), Slave, "pointer")
  const ExB := NewDevice(3, "B", Some(2), Master, "keyboard")
  const ExB1 := NewDevice(5, "B1", Some(3), Slave, "keyboard")
  const ExC := NewDevice(6, "C", None, Slave, FloatingType)
  const ExKinds := [DeviceLine(ExA), DeviceLine(ExA1), DeviceLine(ExB), DeviceLine(ExB1), DeviceLine(ExC)]

  /** The arena after the first two lines. */
  const ExS2 := Arena([Node(ExA, [1]), Node(ExA1, [])], map[2 := 0, 4 := 1], [0])
  /** The arena after all five lines. */
  const ExS5 := Arena([Node(ExA, [1]), Node(ExA1, []), Node(ExB, [3]), Node(ExB1, []), Node(ExC, [])],
    map[2 := 0, 4 := 1, 3 := 2, 5 := 3, 6 := 4], [0, 2, 4])

  lemma ExampleFirstTwo()
    ensures Run(ExKinds[..2]) == Ok(ExS2)
  {
    var s1 := Arena([Node(ExA, [])], map[2 := 0], [0]);
    assert ExKinds[..2] == [DeviceLine(ExA)] + [DeviceLine(ExA1)];
    RunSnoc([], DeviceLine(ExA));
    assert [] + [DeviceLine(ExA)] == [DeviceLine(ExA)];
    assert Run([]) == Ok(Empty);
    AddRootStep(Empty, ExA);
    assert Empty.nodes + [Node(ExA, [])] == s1.nodes && Empty.roots + [0] == s1.roots;
    assert Empty.index[2 := 0] == s1.index;
    assert Run([DeviceLine(ExA)]) == Ok(s1);
    RunSnoc([DeviceLine(ExA)], DeviceLine(ExA1));
    assert "pointer"[0] != FloatingType[0];
    AddKidStep(s1, ExA1);
    assert s1.nodes[0].kids + [1] == [1];
    assert s1.nodes[0 := s1.nodes[0].(kids := [1])] == [Node(ExA, [1])];
    assert [Node(ExA, [1])] + [Node(ExA1, [])] == ExS2.nodes;
    assert s1.index[4 := 1] == ExS2.index;
  }

  const ExS3 := Arena([Node(ExA, [1]), Node(ExA1, []), Node(ExB, [])], map[2 := 0, 4 := 1, 3 := 2], [0, 2])
  const ExS4 := Arena([Node(ExA, [1]), Node(ExA1, []), Node(ExB, [3]), Node(ExB1, [])],
    map[2 := 0, 4 := 1, 3 := 2, 5 := 3], [0, 2])

  lemma ExampleThree()
    ensures Run(ExKinds[..3]) == Ok(ExS3)
  {
    ExampleFirstTwo();
    assert ExKinds[..3] == ExKinds[..2] + [DeviceLine(ExB)];
    RunSnoc(ExKinds[..2], DeviceLine(ExB));
    AddRootStep(ExS2, ExB);
    assert ExS2.nodes + [Node(ExB, [])] == ExS3.nodes && ExS2.roots + [2] == ExS3.roots;
    assert ExS2.index[3 := 2] == ExS3.index;
  }

  lemma ExampleFour()
    ensures Run(ExKinds[..4]) == Ok(ExS4)
  {
    ExampleThree();
    assert ExKinds[..4] == ExKinds[..3] + [DeviceLine(ExB1)];
    RunSnoc(ExKinds[..3], DeviceLine(ExB1));
    assert "keyboard"[0] != FloatingType[0];
    AddKidStep(ExS3, ExB1);
    assert ExS3.nodes[2].kids + [3] == [3];
    assert ExS3.nodes[2 := ExS3.nodes[2].(kids := [3])] + [Node(ExB1, [])] == ExS4.nodes;
    assert ExS3.index[5 := 3] == ExS4.index;
  }

  lemma ExampleAll()
    ensures Run(ExKinds) == Ok(ExS5)
  {
    ExampleFour();
    assert ExKinds == ExKinds[..4] + [DeviceLine(ExC)];
    RunSnoc(ExKinds[..4], DeviceLine(ExC));
    AddRootStep(ExS4, ExC);
    assert ExS4.nodes + [Node(ExC, [])] == ExS5.nodes && ExS4.roots + [4] == ExS5.roots;
    assert ExS4.index[6 := 4] == ExS5.index;
  }

  /** The example parses to two masters, each holding its slave, and the
      floating slave at top level. */
  lemma ExampleForest()
    ensures Run(ExKinds).Ok?
    ensures Forest(Run(ExKinds).value) == [ExA.AddChild(ExA1), ExB.AddChild(ExB1), ExC]
  {
    ExampleAll();
    assert Build(ExS5, 1) == ExA1 && Build(ExS5, 3) == ExB1 && Build(ExS5, 4) == ExC;
    assert Build(ExS5, 0) == ExA.AddChild(ExA1);
    assert Build(ExS5, 2) == ExB.AddChild(ExB1);
  }

  // ---------------------------------------------------------------------
  // `get_device_from_list_by_id`

  /** The devices the search visits, in its order: each top-level device
      followed by its direct children. */
  function Shallow(forest: seq<Device>): seq<Device> {
    if forest == [] then []
    else [forest[0]] + forest[0].children + Shallow(forest[1..])
  }

  lemma {:induction false} ShallowConcat(x: seq<Device>, y: seq<Device>)
    ensures Shallow(x + y) == Shallow(x) + Shallow(y)
    decreases |x|
  {
    if x == [] {
      assert x + y == y;
    } else {
      assert (x + y)[0] == x[0];
      assert (x + y)[1..] == x[1..] + y;
      ShallowConcat(x[1..], y);
    }
  }

  /** No device of `s` carries `id`. */
  predicate NoId(s: seq<Device>, id: nat) {
    forall k :: 0 <= k < |s| ==> s[k].id != id
  }

  /** Position `k` holds the first device of `s` that carries `id`. */
  predicate FirstId(s: seq<Device>, id: nat, k: nat) {
    k < |s| && s[k].id == id && NoId(s[..k], id)
  }

  /** `get_device_from_list_by_id`: the first top-level device or direct
      child of one, in visiting order, that carries `id`; `None` when
      there is none. Grandchildren are not searched. */
  method FindById(devices: seq<Device>, id: nat) returns (r: Option<Device>)
    ensures r.None? <==> NoId(Shallow(devices), id)
    ensures r.Some? ==> exists k: nat :: FirstId(Shallow(devices), id, k) && Shallow(devices)[k] == r.value
  {
    var i := 0;
    while i < |devices|
      invariant 0 <= i <= |devices|
      invariant NoId(Shallow(devices[..i]), id)
    {
      var parent := devices[i];
      if parent.id == id {
        FoundAt(devices, i, id, 0);
        return Some(parent);
      }
      var j := 0;
      while j < |parent.children|
        invariant 0 <= j <= |parent.children|
        invariant NoId(parent.children[..j], id)
      {
        if parent.children[j].id == id {
          FoundAt(devices, i, id, j + 1);
          return Some(parent.children[j]);
        }
        j := j + 1;
      }
      ShallowStep(devices, i);
      assert parent.children[..j] == parent.children;
      i := i + 1;
    }
    assert devices[..i] == devices;
    return None;
  }

  /** What the search visits up to and including top-level device `i`. */
  lemma ShallowStep(devices: seq<Device>, i: nat)
    requires i < |devices|
    ensures Shallow(devices[..i + 1]) == Shallow(devices[..i]) + ([devices[i]] + devices[i].children)
  {
    assert devices[..i + 1] == devices[..i] + [devices[i]];
    ShallowConcat(devices[..i], [devices[i]]);
    assert Shallow([devices[i]]) == [devices[i]] + devices[i].children + Shallow([]);
  }

  /** The visiting order around top-level device `i`. */
  lemma ShallowAt(devices: seq<Device>, i: nat)
    requires i < |devices|
    ensures Shallow(devices) == Shallow(devices[..i + 1]) + Shallow(devices[i + 1..])
  {
    assert devices == devices[..i + 1] + devices[i + 1..];
    ShallowConcat(devices[..i + 1], devices[i + 1..]);
  }

  /** Position `t` of the group of top-level device `i` (0 for the device,
      `j + 1` for its `j`-th child) is the first match when nothing before
      it matches. */
  lemma FoundAt(devices: seq<Device>, i: nat, id: nat, t: nat)
    requires i < |devices| && t <= |devices[i].children|
    requires NoId(Shallow(devices[..i]), id)
    requires t == 0 ==> devices[i].id == id
    requires t > 0 ==> devices[i].id != id && NoId(devices[i].children[..t - 1], id) && devices[i].children[t - 1].id == id
    ensures FirstId(Shallow(devices), id, |Shallow(devices[..i])| + t)
    ensures Shallow(devices)[|Shallow(devices[..i])| + t] == if t == 0 then devices[i] else devices[i].children[t - 1]
  {
    var before := Shallow(devices[..i]);
    var group := [devices[i]] + devices[i].children;
    ShallowStep(devices, i);
    ShallowAt(devices, i);
    var all := Shallow(devices);
    var k := |before| + t;
    assert all == before + group + Shallow(devices[i + 1..]);
    assert all[k] == group[t];
    assert all[..k] == before + group[..t];
    if t > 0 {
      assert group[..t] == [devices[i]] + devices[i].children[..t - 1];
    }
  }
}

=== FILE: maybe.dfy ===
/** Optional values and results: Python's `None` and raised exceptions,
    made explicit. */
module Maybe {

  /** An optional value, standing for a Python value that may be `None`. */
  datatype Option<+T> = None | Some(value: T) {

    predicate IsFailure() {
      None?
    }

    function PropagateFailure<U>(): Option<U>
      requires None?
    {
      None
    }

    function Extract(): T
      requires Some?
    {
      value
    }
  }

  /** The outcome of an operation that either returns a value or raises. */
  datatype Result<+R, +E> = Ok(value: R) | Err(error: E) {

    predicate IsFailure() {
      Err?
    }

    function PropagateFailure<U>(): Result<U, E>
      requires Err?
    {
      Err(error)
    }

    function Extract(): R
      requires Ok?
    {
      value
    }
  }
}

=== FILE: text.dfy ===
/** The three Python string operations the parser relies on:
    `str.split('\n')`, `str.strip()` and the substring test `pat in s`. */
module Text {
  import opened Chars

  const Newline: char := '\n'

  predicate NoNewline(s: string) {
    forall i :: 0 <= i < |s| ==> s[i] != Newline
  }

  /** `s` begins with `p`. */
  predicate StartsWith(s: string, p: string) {
    |p| <= |s| && s[..|p|] == p
  }

  /** Lines glued back together with a newline between neighbours. */
  function Join(lines: seq<string>): string
    requires |lines| >= 1
  {
    if |lines| == 1 then lines[0]
    else lines[0] + [Newline] + Join(lines[1..])
  }

  /** `s.split('\n')`: the pieces between newlines, at least one piece, an
      empty piece for each leading, trailing or doubled newline. */
  function Split(s: string): (lines: seq<string>)
    ensures |lines| >= 1
    ensures forall i :: 0 <= i < |lines| ==> NoNewline(lines[i])
    ensures Join(lines) == s
  {
    if s == [] then [[]]
    else if s[0] == Newline then
      var rest := Split(s[1..]);
      assert s == [] + [Newline] + s[1..];
      [[]] + rest
    else
      var rest := Split(s[1..]);
      var lines := [[s[0]] + rest[0]] + rest[1..];
      assert lines[1..] == rest[1..];
      if |rest| == 1 then
        lines
      else
        assert rest == [rest[0]] + rest[1..];
        assert Join(rest) == rest[0] + [Newline] + Join(rest[1..]);
        lines
  }

  /** Splitting a string that starts with a newline-free piece extends the
      first line of the rest by that piece. */
  lemma {:induction false} SplitPrefix(x: string, t: string)
    requires NoNewline(x)
    ensures Split(x + t) == [x + Split(t)[0]] + Split(t)[1..]
    decreases |x|
  {
    if x != [] {
      assert (x + t)[0] == x[0];
      assert (x + t)[1..] == x[1..] + t;
      SplitPrefix(x[1..], t);
      assert [x[0]] + (x[1..] + Split(t)[0]) == x + Split(t)[0];
    } else {
      assert x + t == t;
      assert x + Split(t)[0] == Split(t)[0];
      assert Split(t) == [Split(t)[0]] + Split(t)[1..];
    }
  }

  /** `Split` undoes `Join` on newline-free lines, so the two functions
      are inverse to each other. */
  lemma {:induction false} SplitJoin(lines: seq<string>)
    requires |lines| >= 1
    requires forall i :: 0 <= i < |lines| ==> NoNewline(lines[i])
    ensures Split(Join(lines)) == lines
    decreases |lines|
  {
    if |lines| == 1 {
      SplitPrefix(lines[0], []);
      assert lines[0] + [] == lines[0];
    } else {
      var rest := Join(lines[1..]);
      SplitJoin(lines[1..]);
      assert Join(lines) == lines[0] + ([Newline] + rest);
      SplitPrefix(lines[0], [Newline] + rest);
      assert ([Newline] + rest)[1..] == rest;
      assert lines[0] + [] == lines[0];
      assert lines == [lines[0]] + lines[1..];
    }
  }

  /** `s[i..j]` is what is left of `s` once whitespace-only ends are cut. */
  predicate Trimmed(s: string, i: int, j: int) {
    0 <= i <= j <= |s| &&
    (forall k :: 0 <= k < i ==> IsSpace(s[k])) &&
    (forall k :: j <= k < |s| ==> IsSpace(s[k]))
  }

  /** `str.strip()`: drop leading and trailing whitespace, keep the rest. */
  function Strip(s: string): (r: string)
    ensures |r| <= |s|
    ensures r == [] || (!IsSpace(r[0]) && !IsSpace(r[|r| - 1]))
    decreases |s|
  {
    if s != [] && IsSpace(s[0]) then Strip(s[1..])
    else if s != [] && IsSpace(s[|s| - 1]) then Strip(s[..|s| - 1])
    else s
  }

  /** `Strip(s)` is `s` with whitespace-only ends cut off: the cut points
      exist. */
  lemma {:induction false} StripCut(s: string) returns (i: nat, j: nat)
    ensures Trimmed(s, i, j) && Strip(s) == s[i..j]
    decreases |s|
  {
    if s != [] && IsSpace(s[0]) {
      var t := s[1..];
      var i', j' := StripCut(t);
      i, j := i' + 1, j' + 1;
      assert forall k :: 1 <= k < |s| ==> s[k] == t[k - 1];
      assert s[i..j] == t[i'..j'];
    } else if s != [] && IsSpace(s[|s| - 1]) {
      var t := s[..|s| - 1];
      i, j := StripCut(t);
      assert forall k :: 0 <= k < |t| ==> s[k] == t[k];
      assert s[i..j] == t[i..j];
    } else {
      i, j := 0, |s|;
      assert s[0..|s|] == s;
    }
  }

  /** Any split of `s` into whitespace, a core with non-blank ends, and
      whitespace has that core as `Strip(s)`. */
  lemma {:induction false} StripUnique(s: string, i: nat, j: nat)
    requires Trimmed(s, i, j)
    requires i == j || (!IsSpace(s[i]) && !IsSpace(s[j - 1]))
    ensures Strip(s) == s[i..j]
    decreases |s|, 1
  {
    if s != [] && IsSpace(s[0]) {
      StripUniqueFront(s, i, j);
    } else if s != [] && IsSpace(s[|s| - 1]) {
      StripUniqueBack(s, i, j);
    } else {
      assert s[0..|s|] == s;
    }
  }

  /** `StripUnique` when `s` opens with a blank. */
  lemma {:induction false} StripUniqueFront(s: string, i: nat, j: nat)
    requires Trimmed(s, i, j)
    requires i == j || (!IsSpace(s[i]) && !IsSpace(s[j - 1]))
    requires s != [] && IsSpace(s[0])
    ensures Strip(s) == s[i..j]
    decreases |s|, 0
  {
    var t := s[1..];
    var i', j' := if i > 0 then i - 1 else 0, if j > 0 then j - 1 else 0;
    assert forall k :: 1 <= k < |s| ==> s[k] == t[k - 1];
    assert t[i'..j'] == s[i' + 1..j' + 1];
    StripUnique(t, i', j');
  }

  /** `StripUnique` when `s` ends with a blank. */
  lemma {:induction false} StripUniqueBack(s: string, i: nat, j: nat)
    requires Trimmed(s, i, j)
    requires i == j || (!IsSpace(s[i]) && !IsSpace(s[j - 1]))
    requires s != [] && !IsSpace(s[0]) && IsSpace(s[|s| - 1])
    ensures Strip(s) == s[i..j]
    decreases |s|, 0
  {
    var t := s[..|s| - 1];
    assert forall k :: 0 <= k < |t| ==> s[k] == t[k];
    assert t[i..j] == s[i..j];
    StripUnique(t, i, j);
  }

  /** Surrounding whitespace never changes a stripped name. */
  lemma StripPadded(w1: string, s: string, w2: string)
    requires AllIn(w1, Space) && AllIn(w2, Space)
    ensures Strip(w1 + s + w2) == Strip(s)
  {
    var i, j := StripCut(s);
    var u := w1 + s + w2;
    var n := |w1|;
    assert forall k :: 0 <= k < n ==> u[k] == w1[k];
    assert forall k :: n <= k < n + |s| ==> u[k] == s[k - n];
    assert forall k :: n + |s| <= k < |u| ==> u[k] == w2[k - n - |s|];
    assert u[n + i..n + j] == s[i..j];
    StripUnique(u, n + i, n + j);
  }

  /** Stripping twice is stripping once. */
  lemma StripIdempotent(s: string)
    ensures Strip(Strip(s)) == Strip(s)
  {
  }

  /** `pat` occurs in `s` starting at index `i`. */
  predicate OccursAt(s: string, pat: string, i: int) {
    0 <= i && i + |pat| <= |s| && s[i..i + |pat|] == pat
  }

  /** `pat in s`: `pat` occurs somewhere in `s` as a contiguous piece. */
  function Contains(s: string, pat: string): (b: bool)
    ensures b <==> exists i :: OccursAt(s, pat, i)
    decreases |s|
  {
    if |s| < |pat| then false
    else if s[..|pat|] == pat then
      assert OccursAt(s, pat, 0);
      true
    else
      var b := Contains(s[1..], pat);
      forall i ensures OccursAt(s[1..], pat, i) <==> OccursAt(s, pat, i + 1) {
        if 0 <= i && i + |pat| <= |s| - 1 {
          assert s[1..][i..i + |pat|] == s[i + 1..i + 1 + |pat|];
        }
      }
      assert (exists i :: OccursAt(s, pat, i)) ==> b by {
        if exists i :: OccursAt(s, pat, i) {
          var i :| OccursAt(s, pat, i);
          assert i != 0;
          assert OccursAt(s[1..], pat, i - 1);
        }
      }
      b
  }
}
